=== FILE: README.md ===
# css-scan: a verified model of the CSS coverage scanner

css-scan crawls a web site from a seed URL and records which bytes of each
stylesheet the browser reports as used. It then writes the used and the
unused CSS to `used.css` and `unused.css` and reports byte totals. This
project models the scanner's core in `src/scanner.ts` and proves what it
promises. The browser, the URL parser and the file system are given to the
model as inputs.

- `ranges.dfy` (module `Ranges`) covers `mergeRanges`. The library sort is a
  stable insertion sort by start (`SortByStart`). The merge loop is a left
  fold, `Fold`. The method `MergeRanges` runs the loop itself.
- `braces.dfy` (module `Braces`) covers the first half of `writeCssFile`.
  It counts `{` minus `}`, pads with `"}\n"` at the end or `"{\n"` at the
  front, and puts the comment header in front.
- `coverage.dfy` (module `Coverage`) covers the global coverage `Map` and
  the per-page merge of coverage entries into it.
  - A `Map` iterates in insertion order, so the model keeps the keys in
    first-insertion order beside the map (`Store`).
  - Entries without a URL get the key `inline-<pages visited>-<text length>`.
  - A key seen again keeps its first text, and its ranges become the merge
    of the old and the new ranges.
- `crawl.dfy` (module `Crawl`) covers the breadth-first crawl loop. Its
  state is a FIFO queue of (url, depth) tasks, a visited set, the list of
  scanned pages and the coverage map. The browser is an oracle (`Browser`):
  - `coverageOf(u)` is the coverage a visit to u reports;
  - `linksOf(u)` is the list of absolute `http…` hrefs on u;
  - `originOf(u)` is `new URL(u).origin`, or `None` where that throws.
- `stats.dfy` (module `Stats`) covers the final statistics pass.
  - Each sheet's ranges are merged again, and a cursor cuts the text into
    used pieces, gaps and a tail, which go to the two buffers.
  - `usedBytes` sums `end - start` over the merged ranges. The percentage is
    kept as an exact rational.
- `scanner.dfy` (module `Scanner`) glues these together in
  `ScanCssCoverage`.
  - A seed that `new URL` rejects makes the whole scan fail before any crawling.
  - Otherwise the scan crawls, summarises, builds the two files and reports
    the result record.

Each character of a string stands for one UTF-16 code unit, as JavaScript's
`length` and `slice` count them; texts holding surrogate code units are
outside the model. `slice` is modelled with its index clamping.

Three properties one might expect of the scanner do not hold of the code
in every case, and the model follows the code:
- **The percentage is not always in [0, 100].** That holds only when every
  stored sheet's ranges lie inside its stored text (`Stats.TallyPercentage`).
  The stats loop counts a range's full width but `slice` clamps the text.
  So a sheet whose ranges reach past its text drives `unusedBytes` and the
  percentage negative (`Stats.RangesPastText`). The coverage map can hold
  such a sheet, because a URL seen again keeps its first text while its
  ranges grow (`Coverage.TwoPagesShareOneSheet`).
- **`mergeRanges` is idempotent and never lengthens its input only for
  well-formed ranges** (`Ranges.MergeIdempotent`, `Ranges.MergeSeparated`).
  The first sorted range is compared with itself, so a single range with
  start > end fails the `<=` test and is pushed twice; merging that result
  gives three copies (`Ranges.MergeReversedSingle`).
- **The browser is not closed on every exit path.** The seed's origin is
  computed at line 93, before the `try` of line 95, so when `new URL`
  rejects the seed the `finally` of lines 220-222 never runs and the
  browser launched at line 81 stays open (`Scanner.ScanCssCoverage`,
  result `browserClosed`).

## Model

| member | source | states |
|---|---|---|
| Ranges.Insert | src/scanner.ts:65 | inserting into a start-sorted list keeps it sorted and adds exactly that range (as a multiset), either at the front or after the old head |
| Ranges.SortByStart | src/scanner.ts:65 | the sorted copy is sorted by start, a permutation of the input and of the same length |
| Ranges.SortOffsets | src/scanner.ts:65 | sorting does not change which offsets are covered |
| Ranges.SortAlreadySorted | src/scanner.ts:65 | sorting a list already sorted by start returns it unchanged (the sort is stable) |
| Ranges.Absorb | src/scanner.ts:69-75 | one pass of the loop body: a range starting no later than the last merged end widens that range to the larger end, any other range is appended (no ensures of its own; `FoldOffsets`, `FoldSeparated` and `FoldLength` state what the steps achieve) |
| Ranges.Fold | src/scanner.ts:66-76 | the merged list is never empty, since it starts from the first sorted range |
| Ranges.FoldLastStart | src/scanner.ts:68-75 | the last merged range starts no later than the last range folded in |
| Ranges.FoldOffsets | src/scanner.ts:66-76 | over sorted input, the fold covers exactly the first range's offsets plus the input's |
| Ranges.FoldSeparated | src/scanner.ts:66-76 | folding well-formed ranges yields ranges where each starts strictly after the previous ends |
| Ranges.FoldLength | src/scanner.ts:66-76 | seeded with its own first range, when that range is well formed (start <= end), the fold is no longer than the input |
| Ranges.FoldOfSeparated | src/scanner.ts:66-76 | folding an already separated list reproduces each of its prefixes |
| Ranges.Merge | src/scanner.ts:61-78 | the merge is empty exactly when the input is empty |
| Ranges.MergeOffsets | src/scanner.ts:61-78 | for every input the merge covers exactly the offsets the input covers |
| Ranges.MergeSeparated | src/scanner.ts:62-77 | for well-formed input the merge is sorted, neither overlapping nor touching, and no longer than the input |
| Ranges.SeparatedIsSorted | src/scanner.ts:65 | separated ranges are sorted by start |
| Ranges.MergeOfSeparated | src/scanner.ts:61-78 | merging separated ranges returns them unchanged |
| Ranges.MergeIdempotent | src/scanner.ts:61-78 | for well-formed input (every start <= end) merging twice gives the same as merging once; `Ranges.MergeReversedSingle` shows it fails otherwise |
| Ranges.MergeWithin | src/scanner.ts:61-78 | merged ranges stay inside any bounds the input ranges lie in |
| Ranges.MergeSingle | src/scanner.ts:62-76 | a single well-formed range is its own merge |
| Ranges.MergeReversedSingle | src/scanner.ts:66-76 | a single reversed range (start > end) fails the `<=` test against its own copy and is pushed twice, and a second merge pushes it a third time: the merge is neither idempotent nor bounded by the input length outside well-formed input |
| Ranges.MergeOverlapping | src/scanner.ts:57-59 | [0, 10) and [5, 15) become [0, 15) |
| Ranges.MergeAdjacent | src/scanner.ts:70-72 | ranges that only touch are joined, whatever their input order |
| Ranges.MergeDisjoint | src/scanner.ts:73-75 | ranges with a gap between them stay apart |
| Ranges.MergeRanges | src/scanner.ts:61-78 | the loop returns the merge, covers the input's offsets, and for well-formed input returns separated ranges no more numerous than the input |
| Braces.PaddedCounts | src/scanner.ts:33-40 | each prepended line adds one `{` and each appended line one `}` to the content's counts |
| Braces.PaddingIsLeast | src/scanner.ts:27-41 | balanced padding on one side is exactly the missing `}` lines or exactly the missing `{` lines |
| Braces.BalanceBraces | src/scanner.ts:27-41 | the result is k `"{\n"` lines, the content, then m `"}\n"` lines, with k or m zero, and is balanced |
| Braces.PrepareCss | src/scanner.ts:26-43 | the text for the formatter is the header followed by the one-sided padding of the content, and its brace surplus is the header's |
| Braces.Header | src/scanner.ts:197-198 | the header text `/* <file> - scanned <n> pages */` and a newline (no ensures of its own; `Braces.HeaderHasNoBraces` and `Scanner.WriteCss` state its properties) |
| Braces.HeaderHasNoBraces | src/scanner.ts:197-198 | the `/* <file> - scanned <n> pages */` header holds no braces when the file name has none |
| Coverage.Put | src/scanner.ts:139 | `Map.set` stores the value, keeps an existing key's place and appends a new key |
| Coverage.KeyOf | src/scanner.ts:136 | the key is never empty and is the entry's URL when that is non-empty |
| Coverage.InlineKey | src/scanner.ts:136 | the key `inline-<pages visited>-<text length>` (no ensures of its own; `Coverage.InlineKeyInjective` and `Coverage.InlineKeyCollision` state exactly when two such keys agree) |
| Text.Decimal | src/scanner.ts:136 | `${n}` for a natural: non-empty, all digits, no leading zero |
| Coverage.DecimalInjective | src/scanner.ts:136 | different page counts or lengths print differently |
| Coverage.InlineKeyInjective | src/scanner.ts:136 | an inline key determines its page count and its text length |
| Coverage.InlineKeyCollision | src/scanner.ts:136 | two URL-less entries share a key exactly when they come with the same page count and the same text length |
| Coverage.AbsorbEntry | src/scanner.ts:136-144 | a new key stores the entry and goes last; an existing key keeps its text and place and gets the merge of old and new ranges; other keys are unchanged |
| Coverage.AbsorbEntryOffsets | src/scanner.ts:138-144 | the key's sheet then covers exactly the old offsets plus the entry's |
| Coverage.AbsorbAll | src/scanner.ts:132-145 | absorbing a page's entries keeps the order listing each key exactly once |
| Coverage.AbsorbAllKeeps | src/scanner.ts:132-145 | an existing key keeps its first text and its place, and its covered offsets only grow |
| Coverage.AbsorbAllKeepsCover | src/scanner.ts:132-145 | offsets covered under a key stay covered after more entries |
| Coverage.AbsorbAllCovers | src/scanner.ts:132-145 | every entry's ranges are covered by the sheet under its key afterwards |
| Coverage.EntryKeys | src/scanner.ts:136 | the key set of a page's entries holds exactly the entries' keys |
| Coverage.AbsorbAllKeys | src/scanner.ts:132-145 | afterwards the keys are the old keys plus the page's entry keys |
| Coverage.TwoPagesShareOneSheet | src/scanner.ts:136-143 | two pages reporting the same URL leave one sheet with the first text and the merge of both pages' ranges |
| Coverage.AbsorbSingle | src/scanner.ts:132-145 | absorbing one entry is one step of the merge |
| Coverage.AbsorbPage | src/scanner.ts:132-145 | the loop over a page's entries produces the absorbed map and keeps it well formed |
| Crawl.StripFragment | src/scanner.ts:157 | the result is a prefix of the href with no `#`, cut exactly at the first `#` when there is one |
| Crawl.StripFragmentIdempotent | src/scanner.ts:157 | stripping twice is stripping once |
| Crawl.NewTasks | src/scanner.ts:155-161 | every task queued from the links has depth + 1 and a URL not yet visited |
| Crawl.NewTasksFromLinks | src/scanner.ts:155-161 | every queued URL is some stripped href, and every stripped href not yet visited is queued |
| Crawl.EnqueueLinks | src/scanner.ts:155-161 | the link loop appends exactly those tasks to the queue |
| Crawl.NextQueue | src/scanner.ts:155-161 | the queue after one task: the rest of the queue, then the new tasks of an expanded page (no ensures of its own; `Crawl.CrawlStep` and `Crawl.VisitKeepsFrontier` state what it keeps) |
| Crawl.AbsorbVisits | src/scanner.ts:108-145 | the coverage map after the visits in order keeps each key once in its order |
| Crawl.AbsorbVisitsCovers | src/scanner.ts:132-145 | every range any visited page reported is covered in the final map under the entry's key |
| Crawl.AbsorbVisitsSnoc | src/scanner.ts:108-145 | visiting one more page absorbs its coverage with the new visited count |
| Crawl.FrontierInit | src/scanner.ts:87-89 | the initial queue, empty visited set and empty page list satisfy the crawl invariant |
| Crawl.SkipStep | src/scanner.ts:102-106 | dropping a visited or foreign task keeps the depth, provenance and closure invariants |
| Crawl.SkipKeepsFrontier | src/scanner.ts:99-106 | a skipped task keeps the whole crawl invariant |
| Crawl.VisitBookkeeping | src/scanner.ts:108-109 | adding an unvisited URL to the set and the list keeps them equal in size, in membership and free of repeats |
| Crawl.AppendNextLevel | src/scanner.ts:159 | appending depth d + 1 tasks behind a queue of depths d and d + 1 keeps it sorted by depth |
| Crawl.VisitLevels | src/scanner.ts:148-160 | after a visit, depths stay within the cap, pages are visited in non-decreasing depth, and the queue stays sorted within one level |
| Crawl.ReachedKept | src/scanner.ts:109 | a page's provenance survives later visits |
| Crawl.QueuedKept | src/scanner.ts:109 | a task's provenance survives later visits |
| Crawl.VisitProvenance | src/scanner.ts:148-160 | every visited page and queued task is the seed or linked from a visited page one level up |
| Crawl.VisitClosure | src/scanner.ts:148-161 | the seed and every link of an expanded page stay visited, foreign or queued |
| Crawl.VisitKeepsFrontier | src/scanner.ts:108-161 | a visit keeps the whole crawl invariant |
| Crawl.ClosureAtExit | src/scanner.ts:98 | with an empty queue, the seed and every link of an expanded page are visited or foreign |
| Crawl.ShallowCrawl | src/scanner.ts:148 | with depth cap 0 only the seed is ever visited, at most once |
| Crawl.VisitPage | src/scanner.ts:108-161 | a visit adds the URL to both records, absorbs its coverage, queues its links and keeps the invariant |
| Crawl.CrawlStep | src/scanner.ts:99-161 | one iteration shifts the first task and either skips it, changing nothing else, or visits it: the URL joins the visited set and the page list, and the queue becomes the rest followed by its new links; either way the invariant holds |
| Crawl.CrawlPages | src/scanner.ts:98-163 | the visited set and the page list agree without repeats, under budget, seed first, same origin, breadth-first depth order, each page reached by links, every reachable link visited unless the budget ran out, depth cap 0 visits only the seed, the page list is exactly the FIFO run of the loop body (`Crawl.Run`), and the map is the absorbed coverage |
| Crawl.Run | src/scanner.ts:98-161 | the pages the loop visits, in order, from a given queue, visited set and page list (no ensures of its own; `Crawl.CrawlPages`, `Crawl.RunExtends` and `Crawl.FirstLinkVisitedSecond` state its properties) |
| Crawl.RunExtends | src/scanner.ts:98-163 | the loop only ever appends to the page list |
| Crawl.NewTasksHead | src/scanner.ts:155-161 | the first href not yet visited becomes the first task queued |
| Crawl.FirstLinkVisitedSecond | src/scanner.ts:98-161 | first in, first out: with a budget of at least two and link following on, a new same-origin first link of the seed is the second page visited, before any later link |
| Stats.SliceIndex | src/scanner.ts:184 | a `slice` index is clamped into [0, length] and kept when already inside |
| Stats.Slice | src/scanner.ts:184-193 | `slice` with indices in order and inside the text is the plain subsequence |
| Stats.Walk | src/scanner.ts:178-190 | the pieces the cursor loop cuts, range by range: the gap since the cursor when the range starts after it, then the range's slice (no ensures of its own; `Stats.WalkCovers` states that the pieces reassemble the text up to the cursor) |
| Stats.Segments | src/scanner.ts:178-194 | the walk followed by the tail after the cursor when the cursor is inside the text (no ensures of its own; `Stats.SegmentsReassemble` states that the pieces join back to the whole text) |
| Stats.Render | src/scanner.ts:184-193 | the used or the unused pieces in order, each followed by a newline, as the two buffers receive them (no ensures of its own; `Stats.ScanSheet` states that the loop fills the buffers with it) |
| Stats.Width | src/scanner.ts:180 | the sum of end - start over the merged ranges (no ensures of its own; `Stats.SegmentsReassemble` states that it is the size of the used pieces for ranges inside the text) |
| Stats.JoinLength | src/scanner.ts:178-194 | the used and unused pieces together hold every character of the joined text |
| Stats.WalkStep | src/scanner.ts:179-189 | one more range adds its gap and its piece, moves the cursor to its end and adds its width |
| Stats.RenderStep | src/scanner.ts:183-187 | one range adds its slice and a newline to the used buffer, and its gap, if any, to the unused buffer |
| Stats.CoverStep | src/scanner.ts:179-189 | from a cursor inside the text, one range extends the reassembled text up to its end |
| Stats.WalkCovers | src/scanner.ts:178-190 | over separated ranges inside the text, the pieces reassemble the text up to the cursor, and the used pieces hold exactly the ranges' width |
| Stats.JoinTail | src/scanner.ts:192-194 | the tail after the cursor completes the text |
| Stats.RenderTail | src/scanner.ts:192-194 | the tail goes to the unused buffer only |
| Stats.SegmentsReassemble | src/scanner.ts:178-194 | over separated ranges inside the text, the pieces in cursor order concatenate to the text; used pieces hold the ranges' width and unused pieces the rest |
| Stats.CutRange | src/scanner.ts:183-187 | one range appends the gap since the cursor, when the range starts after it, to the unused buffer and the range's slice to the used buffer, each followed by a newline |
| Stats.ScanSheet | src/scanner.ts:177-194 | the cursor loop fills the buffers with exactly the rendered pieces and counts the ranges' width |
| Stats.AddSheet | src/scanner.ts:172-194 | the accumulators after one more sheet: its text length, the width of its merged ranges and its rendered pieces (no ensures of its own; `Stats.SheetAccounting` and `Stats.ScanEntry` state its properties) |
| Stats.TallyOf | src/scanner.ts:171-195 | the total byte count is never negative |
| Stats.TallyStep | src/scanner.ts:171-195 | one more key adds that sheet's pieces and counts to the accumulators |
| Stats.SheetAccounting | src/scanner.ts:172-194 | for a sheet whose ranges lie in its text, the pieces reassemble the text, the used pieces hold exactly the bytes counted as used and the unused pieces the rest |
| Stats.TallyBounds | src/scanner.ts:171-195 | when every sheet's ranges lie in its text, 0 <= usedBytes <= totalBytes |
| Stats.RangesPastText | src/scanner.ts:172-190 | a sheet with a range reaching past its text gives usedBytes > totalBytes and a negative percentage |
| Stats.ScanEntry | src/scanner.ts:172-194 | one pass of the stats loop adds the sheet to the accumulators |
| Stats.Summarize | src/scanner.ts:166-195 | the stats loop over the map in insertion order produces exactly the accumulated totals and buffers |
| Stats.UnusedPercentage | src/scanner.ts:200-203 | "0" exactly when there are no bytes; otherwise a ratio in [0, 100] whenever 0 <= unused <= total, and negative when unused is |
| Stats.TallyPercentage | src/scanner.ts:200-203 | when every sheet's ranges lie in its text, the percentage is in [0, 100] |
| Stats.SingleRangeSheet | src/scanner.ts:172-194 | a sheet covered by [0, e) adds its length, e used bytes, its first e characters to the used buffer and the rest to the unused buffer |
| Stats.SingleRangeTally | src/scanner.ts:171-195 | the same, for a map holding that one sheet |
| Stats.SingleSheetScenario | src/scanner.ts:166-203 | a 25-character sheet used over [0, 12) gives 25 bytes, 12 used, 13 unused and 52 percent |
| Scanner.WriteCss | src/scanner.ts:26-43 | the file text is the `/* <file> - scanned <n> pages */` header followed by the buffer padded on one side, and it is balanced |
| Scanner.Report | src/scanner.ts:165-216 | the report's byte totals are the stats over the whole coverage map, unusedBytes = total - used, the percentage is "0" exactly when no bytes were seen, the pages and their count are passed through, and both files are balanced, each a header plus its padded buffer |
| Scanner.ScanCssCoverage | src/scanner.ts:80-223 | under a browser that never fails: the scan fails exactly when the seed's origin cannot be parsed, and then leaves the browser open; otherwise it closes the browser and reports the seed, the pages exactly as the FIFO crawl loop visits them (`Crawl.Run`), without repeats and under budget, seed first, all of the seed's origin, at most one page with depth cap 0; byte totals equal to the stats over the absorbed coverage; unusedBytes = total - used; the percentage ("0" exactly for zero bytes); the three viewport labels; and two balanced files, each a header plus its padded buffer |

## Left out

- Playwright I/O: launching and closing the browser (src/scanner.ts:81, 96, 221), the viewport sweep, `goto` with its swallowed error, scrolling and waiting (lines 115-129), and link extraction through `evaluate` (lines 149-153). The model receives each page's coverage and links as oracle answers.
- `options.onProgress` (line 112): a callback into the UI with no effect on the result.
- Prettier formatting, the fallback formatter `formatFallback` and `fs.writeFile` (lines 16-24, 44-52). The model returns the text handed to the formatter.
- The resolution of `used.css` and `unused.css` against the working directory (line 44): it does not affect the reported file names, which are the bare names.
- Scanner.ScanCssCoverage: the percentage is the exact ratio, not the two-decimal string that `toFixed(2)` produces from floating-point arithmetic (line 202).
- Ranges.MergeRanges: the source writes `previous.end` into range objects it shares with its input (line 72). No caller reads those inputs afterwards, so the model uses value semantics and returns equal ranges.
- `Array.prototype.sort` is a library call. It is modelled as a stable insertion sort by start, which gives the same order for the comparator `a.start - b.start`.
- A coverage entry without text: the source then throws at `entry.text.length` (line 136, for an entry without a URL) or at `data.text.length` (line 172), and the scan rejects. The model's entries always carry text, so it cannot produce that rejection.
- Rejection as a thrown exception: a seed that `new URL` rejects is a `Failure` result, and whether the `finally` closes the browser is the result `browserClosed`.
- Scanner.ScanCssCoverage: the browser is an oracle that never fails. The source also rejects the scan when `chromium.launch` (line 81) or `browser.newPage` (line 96) throws, when a coverage, viewport or `evaluate` call throws (lines 115-129, 149-153), and when the fallback `fs.writeFile` throws (line 51). The model has none of these failures, so its only `Failure` is the rejected seed.
- Texts holding characters outside the Basic Multilingual Plane: JavaScript and the browser's offsets count such a character as two UTF-16 code units, while a Dafny character is one Unicode scalar value and cannot be a lone surrogate. Each model character stands for one code unit, so stylesheets containing surrogate pairs are outside the model.
- src/ui.tsx, src/cli.tsx, src/types.ts and src/services/scanner.ts are not part of this model. They are the UI, the command line, type declarations and an older single-page scanner.

=== FILE: braces.dfy ===
/**
 * The first half of `writeCssFile` (src/scanner.ts:26-43): slices cut at
 * arbitrary offsets can leave braces unmatched, so the buffer is padded with
 * closing braces at the end or opening braces at the front until the counts
 * of `{` and `}` agree, and the comment header is put in front.
 */
module Braces {
  import opened Text

  /** The number of occurrences of c in s. */
  function Count(c: char, s: string): nat
    decreases |s|
  {
    if s == [] then 0 else Count(c, s[..|s| - 1]) + (if s[|s| - 1] == c then 1 else 0)
  }

  /** How many more `{` than `}` the text holds (negative when `}` are in excess). */
  function OpenBraces(s: string): int {
    Count('{', s) - Count('}', s)
  }

  predicate Balanced(s: string) {
    Count('{', s) == Count('}', s)
  }

  /** n copies of s. */
  function Repeat(s: string, n: nat): string
    decreases n
  {
    if n == 0 then [] else s + Repeat(s, n - 1)
  }

  lemma {:induction false} CountAppend(c: char, a: string, b: string)
    ensures Count(c, a + b) == Count(c, a) + Count(c, b)
    decreases |b|
  {
    if b == [] {
      assert a + b == a;
    } else {
      assert (a + b)[..|a + b| - 1] == a + b[..|b| - 1];
      CountAppend(c, a, b[..|b| - 1]);
    }
  }

  lemma {:induction false} CountRepeat(c: char, s: string, n: nat)
    ensures Count(c, Repeat(s, n)) == n * Count(c, s)
    decreases n
  {
    if n > 0 {
      CountRepeat(c, s, n - 1);
      CountAppend(c, s, Repeat(s, n - 1));
    }
  }

  lemma {:induction false} CountAbsent(c: char, s: string)
    requires forall i :: 0 <= i < |s| ==> s[i] != c
    ensures Count(c, s) == 0
    decreases |s|
  {
    if s != [] {
      CountAbsent(c, s[..|s| - 1]);
    }
  }

  lemma {:induction false} RepeatSnoc(s: string, n: nat)
    ensures Repeat(s, n) + s == Repeat(s, n + 1)
    decreases n
  {
    if n > 0 {
      RepeatSnoc(s, n - 1);
    }
  }

  /** One more opening line in front of the padded text. */
  lemma PrependLine(content: string, k: nat, m: nat)
    ensures "{\n" + (Repeat("{\n", k) + content + Repeat("}\n", m)) == Repeat("{\n", k + 1) + content + Repeat("}\n", m)
  {
    assert Repeat("{\n", k + 1) == "{\n" + Repeat("{\n", k);
  }

  /** Braces counted in the padded text: one `{` per prefix line, one `}` per suffix line. */
  lemma PaddedCounts(content: string, k: nat, m: nat)
    ensures Count('{', Repeat("{\n", k) + content + Repeat("}\n", m)) == k + Count('{', content)
    ensures Count('}', Repeat("{\n", k) + content + Repeat("}\n", m)) == m + Count('}', content)
  {
    assert "{\n"[..1] == "{" && "{\n"[..1][..0] == [];
    assert "}\n"[..1] == "}" && "}\n"[..1][..0] == [];
    assert Count('{', "{\n") == 1 && Count('}', "{\n") == 0;
    assert Count('{', "}\n") == 0 && Count('}', "}\n") == 1;
    CountRepeat('{', "{\n", k);
    CountRepeat('}', "{\n", k);
    CountRepeat('{', "}\n", m);
    CountRepeat('}', "}\n", m);
    CountAppend('{', Repeat("{\n", k), content);
    CountAppend('}', Repeat("{\n", k), content);
    CountAppend('{', Repeat("{\n", k) + content, Repeat("}\n", m));
    CountAppend('}', Repeat("{\n", k) + content, Repeat("}\n", m));
  }

  /**
   * Balanced padding on one side only is unique: it adds exactly the
   * missing closing braces, or exactly the missing opening ones.
   */
  lemma PaddingIsLeast(content: string, k: nat, m: nat)
    requires Balanced(Repeat("{\n", k) + content + Repeat("}\n", m))
    requires k == 0 || m == 0
    ensures m == (if OpenBraces(content) > 0 then OpenBraces(content) else 0)
    ensures k == (if OpenBraces(content) < 0 then -OpenBraces(content) else 0)
  {
    PaddedCounts(content, k, m);
  }

  /**
   * The two balancing loops of src/scanner.ts:27-41: count `{` minus `}`,
   * append "}\n" while the count is positive, prepend "{\n" while it is
   * negative. The ghost results are the numbers of lines prepended and
   * appended.
   */
  method BalanceBraces(content: string) returns (balanced: string, ghost k: nat, ghost m: nat)
    ensures balanced == Repeat("{\n", k) + content + Repeat("}\n", m)
    ensures k == 0 || m == 0
    ensures Balanced(balanced)
  {
    var openBraces := 0;
    for i := 0 to |content|
      invariant openBraces == OpenBraces(content[..i])
    {
      assert content[..i + 1][..i] == content[..i];
      if content[i] == '{' { openBraces := openBraces + 1; }
      if content[i] == '}' { openBraces := openBraces - 1; }
    }
    assert content[..|content|] == content;

    balanced := content;
    m := 0;
    while openBraces > 0
      invariant balanced == content + Repeat("}\n", m)
      invariant openBraces == OpenBraces(content) - m
      invariant m > 0 ==> openBraces >= 0
    {
      RepeatSnoc("}\n", m);
      balanced := balanced + "}\n";
      openBraces := openBraces - 1;
      m := m + 1;
    }
    k := 0;
    while openBraces < 0
      invariant balanced == Repeat("{\n", k) + content + Repeat("}\n", m)
      invariant openBraces == OpenBraces(content) - m + k
      invariant openBraces <= 0
      invariant m > 0 ==> openBraces >= 0
      invariant k > 0 ==> m == 0
    {
      PrependLine(content, k, m);
      balanced := "{\n" + balanced;
      openBraces := openBraces + 1;
      k := k + 1;
    }
    PaddedCounts(content, k, m);
  }

  /**
   * What writeCssFile hands to the formatter (src/scanner.ts:26-43): the
   * balanced content with the header, when it is not empty, in front.
   */
  method PrepareCss(content: string, header: string) returns (css: string, ghost k: nat, ghost m: nat)
    ensures css == header + Repeat("{\n", k) + content + Repeat("}\n", m)
    ensures k == 0 || m == 0
    ensures OpenBraces(css) == OpenBraces(header)
  {
    var balanced;
    balanced, k, m := BalanceBraces(content);
    if header != "" {
      css := header + balanced;
    } else {
      css := balanced;
      assert header + balanced == balanced;
    }
    assert css == header + balanced;
    Prefixed(header, Repeat("{\n", k), content, Repeat("}\n", m));
    BalancedSuffix(header, balanced);
  }

  lemma Prefixed(header: string, front: string, content: string, back: string)
    ensures header + (front + content + back) == header + front + content + back
  {
  }

  /** Appending balanced text leaves the surplus of opening braces unchanged. */
  lemma BalancedSuffix(header: string, balanced: string)
    requires Balanced(balanced)
    ensures OpenBraces(header + balanced) == OpenBraces(header)
  {
    CountAppend('{', header, balanced);
    CountAppend('}', header, balanced);
  }

  /** The comment header of used.css and unused.css (src/scanner.ts:197-198). */
  function Header(fileName: string, pages: nat): string {
    "/* " + fileName + " - scanned " + Decimal(pages) + " pages */\n"
  }

  /** A header names no braces, so the output handed to the formatter stays balanced. */
  lemma HeaderHasNoBraces(fileName: string, pages: nat)
    requires forall i :: 0 <= i < |fileName| ==> fileName[i] != '{' && fileName[i] != '}'
    ensures Count('{', Header(fileName, pages)) == 0 && Count('}', Header(fileName, pages)) == 0
  {
    var h := Header(fileName, pages);
    var d := Decimal(pages);
    assert h == "/* " + fileName + " - scanned " + d + " pages */\n";
    forall i | 0 <= i < |h| ensures h[i] != '{' && h[i] != '}' {
      var a := |"/* " + fileName + " - scanned "|;
      if a <= i < a + |d| {
        assert h[i] == d[i - a];
      }
    }
    CountAbsent('{', h);
    CountAbsent('}', h);
  }
}

=== FILE: coverage.dfy ===
/**
 * The global coverage map of src/scanner.ts (line 84) and the merge of one
 * page's coverage entries into it (lines 132-145).
 */
module Coverage {
  import opened Ranges
  import opened Text

  /** One stylesheet as the browser reports it for a page visit. */
  datatype CoverageEntry = CoverageEntry(url: string, text: string, ranges: seq<Range>)

  /** The value stored per key: the text seen first and the ranges gathered so far. */
  datatype Sheet = Sheet(text: string, ranges: seq<Range>)

  /**
   * The JavaScript `Map` from key to sheet. A `Map` iterates in insertion
   * order, and the final stats pass depends on that order, so the keys are
   * kept in the order they were first set.
   */
  datatype Store = Store(order: seq<string>, sheets: map<string, Sheet>)

  const Empty := Store([], map[])

  /** The order lists every key of the map exactly once. */
  ghost predicate Valid(st: Store) {
    (forall i, j :: 0 <= i < j < |st.order| ==> st.order[i] != st.order[j]) &&
    (forall k :: k in st.sheets <==> k in st.order)
  }

  lemma EmptyValid()
    ensures Valid(Empty)
  {
  }

  /** `Map.prototype.set`: a new key goes to the end of the order, an existing one keeps its place. */
  function Put(st: Store, key: string, sheet: Sheet): (r: Store)
    requires Valid(st)
    ensures Valid(r)
    ensures r.sheets == st.sheets[key := sheet]
    ensures r.order == if key in st.sheets then st.order else st.order + [key]
  {
    if key in st.sheets then Store(st.order, st.sheets[key := sheet])
    else Store(st.order + [key], st.sheets[key := sheet])
  }

  /**
   * The aggregation key of an entry (src/scanner.ts:136): its URL, or for an
   * entry without one, a key made of the number of pages visited so far and
   * the length of its text.
   */
  function KeyOf(entry: CoverageEntry, pages: nat): (key: string)
    ensures |key| > 0
    ensures entry.url != "" ==> key == entry.url
  {
    if entry.url != "" then entry.url
    else InlineKey(pages, |entry.text|)
  }

  /** The key of an entry without a URL, made of the pages visited so far and its text length. */
  function InlineKey(pages: nat, length: nat): string {
    "inline-" + Decimal(pages) + "-" + Decimal(length)
  }

  lemma {:induction false} DecimalInjective(a: nat, b: nat)
    requires Decimal(a) == Decimal(b)
    ensures a == b
    decreases a
  {
    var da, db := Decimal(a), Decimal(b);
    if a >= 10 && b >= 10 {
      assert Decimal(a / 10) == da[..|da| - 1] && Decimal(b / 10) == db[..|db| - 1];
      DecimalInjective(a / 10, b / 10);
      assert DigitChar(a % 10) == da[|da| - 1];
      assert "0123456789"[a % 10] == "0123456789"[b % 10];
    } else if a < 10 && b < 10 {
      assert "0123456789"[a] == "0123456789"[b];
    } else {
      assert false;
    }
  }

  /** The index of the first '-' in s (|s| when there is none). */
  function FirstDash(s: string): (i: nat)
    ensures i <= |s|
    decreases |s|
  {
    if s == [] || s[0] == '-' then 0 else 1 + FirstDash(s[1..])
  }

  lemma {:induction false} FirstDashAfterDigits(p: string, q: string)
    requires forall i :: 0 <= i < |p| ==> IsDigit(p[i])
    ensures FirstDash(p + "-" + q) == |p|
    decreases |p|
  {
    if p != [] {
      assert (p + "-" + q)[1..] == p[1..] + "-" + q;
      FirstDashAfterDigits(p[1..], q);
    }
  }

  /** A string of digits, a dash and a rest splits back into the digits and the rest. */
  lemma InlineKeySplit(p: string, q: string, x: string, y: string)
    requires forall i :: 0 <= i < |p| ==> IsDigit(p[i])
    requires forall i :: 0 <= i < |x| ==> IsDigit(x[i])
    requires p + "-" + q == x + "-" + y
    ensures p == x && q == y
  {
    FirstDashAfterDigits(p, q);
    FirstDashAfterDigits(x, y);
    assert p == (p + "-" + q)[..|p|] && x == (x + "-" + y)[..|x|];
    assert q == (p + "-" + q)[|p| + 1..] && y == (x + "-" + y)[|x| + 1..];
  }

  /**
   * Two entries without a URL share a key exactly when they are reported
   * after the same number of visited pages and have texts of equal length;
   * such entries are merged into one sheet even when their texts differ.
   */
  lemma InlineKeyCollision(e1: CoverageEntry, p1: nat, e2: CoverageEntry, p2: nat)
    requires e1.url == "" && e2.url == ""
    ensures KeyOf(e1, p1) == KeyOf(e2, p2) <==> p1 == p2 && |e1.text| == |e2.text|
  {
    if KeyOf(e1, p1) == KeyOf(e2, p2) {
      InlineKeyInjective(p1, |e1.text|, p2, |e2.text|);
    }
  }

  /** The inline key determines the page count and the text length it was made from. */
  lemma InlineKeyInjective(p1: nat, n1: nat, p2: nat, n2: nat)
    requires InlineKey(p1, n1) == InlineKey(p2, n2)
    ensures p1 == p2 && n1 == n2
  {
    var a := Decimal(p1) + "-" + Decimal(n1);
    var b := Decimal(p2) + "-" + Decimal(n2);
    assert a == b by {
      assert InlineKey(p1, n1) == "inline-" + a && InlineKey(p2, n2) == "inline-" + b;
      assert a == InlineKey(p1, n1)[7..] && b == InlineKey(p2, n2)[7..];
    }
    assert Decimal(p1) == Decimal(p2) && Decimal(n1) == Decimal(n2) by {
      InlineKeySplit(Decimal(p1), Decimal(n1), Decimal(p2), Decimal(n2));
    }
    DecimalInjective(p1, p2);
    DecimalInjective(n1, n2);
  }

  /**
   * One iteration of src/scanner.ts:132-145: a new key stores the entry's
   * text and ranges; an existing key keeps its first-seen text and its
   * ranges become the merge of the old and the new ones; no other key
   * changes.
   */
  function AbsorbEntry(st: Store, entry: CoverageEntry, pages: nat): (r: Store)
    requires Valid(st)
    ensures Valid(r)
    ensures r.sheets.Keys == st.sheets.Keys + {KeyOf(entry, pages)}
    ensures forall k :: k in st.sheets && k != KeyOf(entry, pages) ==> r.sheets[k] == st.sheets[k]
    ensures var key := KeyOf(entry, pages);
      if key in st.sheets then
        r.order == st.order &&
        r.sheets[key] == Sheet(st.sheets[key].text, Merge(st.sheets[key].ranges + entry.ranges))
      else
        r.order == st.order + [key] && r.sheets[key] == Sheet(entry.text, entry.ranges)
  {
    var key := KeyOf(entry, pages);
    if key !in st.sheets then Put(st, key, Sheet(entry.text, entry.ranges))
    else
      var existing := st.sheets[key];
      Put(st, key, Sheet(existing.text, Merge(existing.ranges + entry.ranges)))
  }

  /** After absorbing an entry, its key covers what it covered before plus what the entry reports. */
  lemma AbsorbEntryOffsets(st: Store, entry: CoverageEntry, pages: nat)
    requires Valid(st)
    ensures var key := KeyOf(entry, pages);
      Offsets(AbsorbEntry(st, entry, pages).sheets[key].ranges)
      == (if key in st.sheets then Offsets(st.sheets[key].ranges) else iset{}) + Offsets(entry.ranges)
  {
    var key := KeyOf(entry, pages);
    if key in st.sheets {
      MergeOffsets(st.sheets[key].ranges + entry.ranges);
      OffsetsAppend(st.sheets[key].ranges, entry.ranges);
    }
  }

  /** The map after the loop of src/scanner.ts:132-145 has run over `entries`. */
  function AbsorbAll(st: Store, entries: seq<CoverageEntry>, pages: nat): (r: Store)
    requires Valid(st)
    ensures Valid(r)
    decreases |entries|
  {
    if entries == [] then st
    else AbsorbEntry(AbsorbAll(st, entries[..|entries| - 1], pages), entries[|entries| - 1], pages)
  }

  /**
   * Absorbing a page's entries only adds: every old key stays, keeps its
   * text and its place in the order, and covers at least what it covered.
   */
  lemma {:induction false} AbsorbAllKeeps(st: Store, entries: seq<CoverageEntry>, pages: nat, k: string)
    requires Valid(st) && k in st.sheets
    ensures var r := AbsorbAll(st, entries, pages);
      && st.order <= r.order
      && k in r.sheets && r.sheets[k].text == st.sheets[k].text
      && Offsets(st.sheets[k].ranges) <= Offsets(r.sheets[k].ranges)
    decreases |entries|
  {
    if entries != [] {
      var prefix := entries[..|entries| - 1];
      var mid := AbsorbAll(st, prefix, pages);
      var last := entries[|entries| - 1];
      assert AbsorbAll(st, entries, pages) == AbsorbEntry(mid, last, pages);
      AbsorbAllKeeps(st, prefix, pages, k);
      AbsorbEntryOffsets(mid, last, pages);
    }
  }

  /** Whatever a key covered before a page is absorbed, it still covers afterwards. */
  lemma AbsorbAllKeepsCover(st: Store, entries: seq<CoverageEntry>, pages: nat, k: string, s: iset<int>)
    requires Valid(st) && k in st.sheets && s <= Offsets(st.sheets[k].ranges)
    ensures var r := AbsorbAll(st, entries, pages);
      k in r.sheets && s <= Offsets(r.sheets[k].ranges)
  {
    AbsorbAllKeeps(st, entries, pages, k);
  }

  /** After a page is absorbed, each of its entries' keys covers what that entry reported. */
  lemma {:induction false} AbsorbAllCovers(st: Store, entries: seq<CoverageEntry>, pages: nat, i: nat)
    requires Valid(st) && i < |entries|
    ensures var r := AbsorbAll(st, entries, pages);
      var key := KeyOf(entries[i], pages);
      key in r.sheets && Offsets(entries[i].ranges) <= Offsets(r.sheets[key].ranges)
    decreases |entries|
  {
    var n := |entries| - 1;
    var prefix := entries[..n];
    var mid := AbsorbAll(st, prefix, pages);
    var last := entries[n];
    var r := AbsorbEntry(mid, last, pages);
    assert AbsorbAll(st, entries, pages) == r;
    var key := KeyOf(entries[i], pages);
    if i == n || key == KeyOf(last, pages) {
      if i < n {
        assert entries[i] == prefix[i];
        AbsorbAllCovers(st, prefix, pages, i);
      }
      AbsorbEntryOffsets(mid, last, pages);
    } else {
      assert entries[i] == prefix[i];
      AbsorbAllCovers(st, prefix, pages, i);
      assert r.sheets[key] == mid.sheets[key];
    }
  }

  /** The keys a page's entries are stored under. */
  function EntryKeys(entries: seq<CoverageEntry>, pages: nat): (keys: set<string>)
    ensures forall i :: 0 <= i < |entries| ==> KeyOf(entries[i], pages) in keys
    ensures forall k :: k in keys ==> exists i :: 0 <= i < |entries| && KeyOf(entries[i], pages) == k
    decreases |entries|
  {
    if entries == [] then {}
    else
      var n := |entries| - 1;
      var prefix := EntryKeys(entries[..n], pages);
      assert forall i :: 0 <= i < n ==> entries[..n][i] == entries[i];
      prefix + {KeyOf(entries[n], pages)}
  }

  /** The keys after a page is absorbed are the old keys and the keys of its entries, no others. */
  lemma {:induction false} AbsorbAllKeys(st: Store, entries: seq<CoverageEntry>, pages: nat)
    requires Valid(st)
    ensures AbsorbAll(st, entries, pages).sheets.Keys == st.sheets.Keys + EntryKeys(entries, pages)
    decreases |entries|
  {
    if entries != [] {
      AbsorbAllKeys(st, entries[..|entries| - 1], pages);
    }
  }

  /**
   * A stylesheet reported by two pages under the same URL is stored once:
   * one key, the text of its first report, and the merge of both pages'
   * ranges (so [0, 10) then [5, 15) give [0, 15), by MergeOverlapping).
   */
  lemma TwoPagesShareOneSheet(e1: CoverageEntry, e2: CoverageEntry)
    requires e1.url != "" && e2.url == e1.url
    ensures var url := e1.url;
      AbsorbAll(AbsorbAll(Empty, [e1], 1), [e2], 2) == Store([url], map[url := Sheet(e1.text, Merge(e1.ranges + e2.ranges))])
  {
    var url := e1.url;
    EmptyValid();
    var first := AbsorbEntry(Empty, e1, 1);
    AbsorbSingle(Empty, e1, 1);
    assert first.sheets == map[url := Sheet(e1.text, e1.ranges)];
    var second := AbsorbEntry(first, e2, 2);
    AbsorbSingle(first, e2, 2);
    assert second.sheets == map[url := Sheet(e1.text, Merge(e1.ranges + e2.ranges))];
  }

  /** Absorbing a page with one entry is absorbing that entry. */
  lemma AbsorbSingle(st: Store, e: CoverageEntry, pages: nat)
    requires Valid(st)
    ensures AbsorbAll(st, [e], pages) == AbsorbEntry(st, e, pages)
  {
    assert [e][..0] == [];
  }

  /**
   * The loop of src/scanner.ts:132-145 over one page's entries, `pages`
   * being the number of pages visited so far.
   */
  method AbsorbPage(st: Store, entries: seq<CoverageEntry>, pages: nat) returns (result: Store)
    requires Valid(st)
    ensures result == AbsorbAll(st, entries, pages)
    ensures Valid(result)
  {
    result := st;
    for i := 0 to |entries|
      invariant Valid(result)
      invariant result == AbsorbAll(st, entries[..i], pages)
    {
      assert entries[..i + 1][..i] == entries[..i];
      var entry := entries[i];
      var key := KeyOf(entry, pages);
      if key !in result.sheets {
        result := Put(result, key, Sheet(entry.text, entry.ranges));
      } else {
        var existing := result.sheets[key];
        var merged := MergeRanges(existing.ranges + entry.ranges);
        result := Put(result, key, Sheet(existing.text, merged));
      }
    }
    assert entries[..|entries|] == entries;
  }
}

=== FILE: crawl.dfy ===
/**
 * The breadth-first crawl of `scanCssCoverage` (src/scanner.ts:87-163): a
 * FIFO queue of (url, depth) tasks, a visited set, the list of scanned
 * pages in visit order, a page budget, a same-origin filter and a depth cap.
 * The browser is an oracle: what coverage a page reports, which links it
 * holds and what origin a URL has are given as functions.
 */
module Crawl {
  import opened Wrappers
  import opened Ranges
  import opened Coverage

  /** A unit of crawl work: a URL and its link distance from the seed. */
  datatype Task = Task(url: string, depth: int)

  /**
   * What the browser and the URL parser answer. `coverageOf(u)` is what
   * stopping CSS coverage returns after the three-viewport sweep of u
   * (lines 115-129; a failed navigation is already swallowed in it),
   * `linksOf(u)` the anchors' absolute hrefs that start with "http"
   * (lines 149-153), and `originOf(u)` is `new URL(u).origin`, None where
   * that constructor throws.
   */
  datatype Browser = Browser(
    coverageOf: string -> seq<CoverageEntry>,
    linksOf: string -> seq<string>,
    originOf: string -> Option<string>)

  /** The crawl options the loop reads: the page budget and the depth cap. */
  datatype Options = Options(maxPages: int, depth: int)

  /** `href.split('#')[0]`: everything before the first '#'. */
  function StripFragment(href: string): (r: string)
    ensures r <= href
    ensures forall i :: 0 <= i < |r| ==> r[i] != '#'
    ensures |r| < |href| ==> href[|r|] == '#'
    decreases |href|
  {
    if href == [] || href[0] == '#' then [] else [href[0]] + StripFragment(href[1..])
  }

  lemma {:induction false} StripFragmentIdempotent(href: string)
    ensures StripFragment(StripFragment(href)) == StripFragment(href)
    decreases |href|
  {
    if href != [] && href[0] != '#' {
      StripFragmentIdempotent(href[1..]);
      assert StripFragment(href)[1..] == StripFragment(href[1..]);
    }
  }

  /** Page `page` holds a link that, without its fragment, is `url`. */
  ghost predicate LinksTo(browser: Browser, page: string, url: string) {
    exists k :: 0 <= k < |browser.linksOf(page)| && StripFragment(browser.linksOf(page)[k]) == url
  }

  /**
   * The tasks the link loop of src/scanner.ts:155-161 queues: each href
   * without its fragment, at the next depth, unless it is already visited.
   */
  function NewTasks(hrefs: seq<string>, visited: set<string>, depth: int): (tasks: seq<Task>)
    ensures forall t :: t in tasks ==> t.depth == depth + 1 && t.url !in visited
    decreases |hrefs|
  {
    if hrefs == [] then []
    else
      var n := |hrefs| - 1;
      var clean := StripFragment(hrefs[n]);
      if clean !in visited then NewTasks(hrefs[..n], visited, depth) + [Task(clean, depth + 1)]
      else NewTasks(hrefs[..n], visited, depth)
  }

  /** Every queued task comes from an href, and every href not yet visited is queued. */
  lemma {:induction false} NewTasksFromLinks(hrefs: seq<string>, visited: set<string>, depth: int)
    ensures forall t :: t in NewTasks(hrefs, visited, depth) ==>
      exists k :: 0 <= k < |hrefs| && StripFragment(hrefs[k]) == t.url
    ensures forall k :: 0 <= k < |hrefs| && StripFragment(hrefs[k]) !in visited ==>
      Task(StripFragment(hrefs[k]), depth + 1) in NewTasks(hrefs, visited, depth)
    decreases |hrefs|
  {
    if hrefs != [] {
      var n := |hrefs| - 1;
      NewTasksFromLinks(hrefs[..n], visited, depth);
      assert forall k :: 0 <= k < n ==> hrefs[..n][k] == hrefs[k];
    }
  }

  /** The link loop of src/scanner.ts:155-161, pushing onto the queue. */
  method EnqueueLinks(queue: seq<Task>, hrefs: seq<string>, visited: set<string>, depth: int)
    returns (result: seq<Task>)
    ensures result == queue + NewTasks(hrefs, visited, depth)
  {
    result := queue;
    for i := 0 to |hrefs|
      invariant result == queue + NewTasks(hrefs[..i], visited, depth)
    {
      assert hrefs[..i + 1][..i] == hrefs[..i];
      var cleanHref := StripFragment(hrefs[i]);
      if cleanHref !in visited {
        result := result + [Task(cleanHref, depth + 1)];
      }
    }
    assert hrefs[..|hrefs|] == hrefs;
  }

  /**
   * The coverage map after `pages` were visited in this order: the entries
   * of the i-th page (from 0) are absorbed with i + 1 pages visited.
   */
  function AbsorbVisits(browser: Browser, pages: seq<string>): (st: Store)
    ensures Valid(st)
    decreases |pages|
  {
    if pages == [] then EmptyValid(); Empty
    else
      var n := |pages| - 1;
      AbsorbAll(AbsorbVisits(browser, pages[..n]), browser.coverageOf(pages[n]), n + 1)
  }

  /**
   * Coverage is never lost across pages: every range any visited page
   * reported for a stylesheet is covered by that stylesheet's entry in the
   * final map.
   */
  lemma {:induction false} AbsorbVisitsCovers(browser: Browser, pages: seq<string>, i: nat, j: nat)
    requires i < |pages| && j < |browser.coverageOf(pages[i])|
    ensures var st := AbsorbVisits(browser, pages);
      var e := browser.coverageOf(pages[i])[j];
      KeyOf(e, i + 1) in st.sheets && Offsets(e.ranges) <= Offsets(st.sheets[KeyOf(e, i + 1)].ranges)
    decreases |pages|
  {
    var n := |pages| - 1;
    var e := browser.coverageOf(pages[i])[j];
    var key := KeyOf(e, i + 1);
    var before := AbsorbVisits(browser, pages[..n]);
    var after := AbsorbAll(before, browser.coverageOf(pages[n]), n + 1);
    assert AbsorbVisits(browser, pages) == after;
    if i == n {
      AbsorbAllCovers(before, browser.coverageOf(pages[n]), n + 1, j);
    } else {
      assert key in before.sheets && Offsets(e.ranges) <= Offsets(before.sheets[key].ranges) by {
        assert pages[..n][i] == pages[i];
        AbsorbVisitsCovers(browser, pages[..n], i, j);
      }
      AbsorbAllKeepsCover(before, browser.coverageOf(pages[n]), n + 1, key, Offsets(e.ranges));
    }
  }

  ghost predicate Distinct(s: seq<string>) {
    forall i, j :: 0 <= i < j < |s| ==> s[i] != s[j]
  }

  function MaxZero(n: int): nat { if n < 0 then 0 else n }

  /** Where a visited page came from: it is the seed, or a page visited earlier one level up links to it. */
  ghost predicate Reached(browser: Browser, seed: string, options: Options, scanned: seq<string>, depths: seq<int>, i: int)
    requires 0 <= i < |scanned| == |depths|
  {
    (scanned[i] == seed && depths[i] == 0) ||
    exists j :: 0 <= j < i && depths[j] < options.depth && depths[i] == depths[j] + 1 &&
      LinksTo(browser, scanned[j], scanned[i])
  }

  /** Where a queued task came from: it is the seed task, or a visited page one level up links to it. */
  ghost predicate Queued(browser: Browser, seed: string, options: Options, scanned: seq<string>, depths: seq<int>, t: Task)
    requires |scanned| == |depths|
  {
    t == Task(seed, 0) ||
    exists j :: 0 <= j < |scanned| && depths[j] < options.depth && t.depth == depths[j] + 1 &&
      LinksTo(browser, scanned[j], t.url)
  }

  /** The URL is waiting in the queue. */
  ghost predicate Pending(queue: seq<Task>, url: string) {
    exists i :: 0 <= i < |queue| && queue[i].url == url
  }

  /** A URL that is visited, that the origin check would skip, or that is still waiting. */
  ghost predicate Settled(browser: Browser, seedOrigin: string, visited: set<string>, queue: seq<Task>, url: string) {
    url in visited || browser.originOf(url) != Some(seedOrigin) || Pending(queue, url)
  }

  /** scannedPages lists the visited set, each URL once; depths runs beside it. */
  ghost predicate Bookkeeping(visited: set<string>, scanned: seq<string>, depths: seq<int>) {
    |scanned| == |visited| == |depths| &&
    (forall u :: u in visited <==> u in scanned) &&
    Distinct(scanned)
  }

  /**
   * Breadth-first depth discipline: depths are within [0, the cap], pages
   * are visited in non-decreasing depth, and the queue is sorted by depth
   * within one level of the last page visited.
   */
  ghost predicate Levels(options: Options, queue: seq<Task>, depths: seq<int>) {
    (forall i :: 0 <= i < |depths| ==> 0 <= depths[i] <= MaxZero(options.depth)) &&
    (forall i :: 0 <= i < |queue| ==> 0 <= queue[i].depth <= MaxZero(options.depth)) &&
    (forall i, j :: 0 <= i < j < |depths| ==> depths[i] <= depths[j]) &&
    (forall i, j :: 0 <= i < j < |queue| ==> queue[i].depth <= queue[j].depth) &&
    (|depths| == 0 ==> forall i :: 0 <= i < |queue| ==> queue[i].depth == 0) &&
    (|depths| > 0 ==> forall i :: 0 <= i < |queue| ==>
      depths[|depths| - 1] <= queue[i].depth <= depths[|depths| - 1] + 1)
  }

  /** Every visited page and every queued task was reached from the seed through links. */
  ghost predicate Provenance(browser: Browser, seed: string, options: Options, queue: seq<Task>,
                             scanned: seq<string>, depths: seq<int>)
    requires |scanned| == |depths|
  {
    (forall i :: 0 <= i < |scanned| ==> Reached(browser, seed, options, scanned, depths, i)) &&
    (forall i :: 0 <= i < |queue| ==> Queued(browser, seed, options, scanned, depths, queue[i]))
  }

  /** The seed and every link of every expanded page is visited, filtered out, or waiting. */
  ghost predicate Closure(browser: Browser, seed: string, seedOrigin: string, options: Options, queue: seq<Task>,
                          visited: set<string>, scanned: seq<string>, depths: seq<int>)
    requires |scanned| == |depths|
  {
    Settled(browser, seedOrigin, visited, queue, seed) &&
    forall j, k :: 0 <= j < |scanned| && depths[j] < options.depth && 0 <= k < |browser.linksOf(scanned[j])| ==>
      Settled(browser, seedOrigin, visited, queue, StripFragment(browser.linksOf(scanned[j])[k]))
  }

  /** Popping a task that is skipped keeps every invariant over the shorter queue. */
  lemma SkipStep(browser: Browser, seed: string, seedOrigin: string, options: Options, queue: seq<Task>,
                 visited: set<string>, scanned: seq<string>, depths: seq<int>)
    requires |queue| > 0 && |scanned| == |depths|
    requires queue[0].url in visited || browser.originOf(queue[0].url) != Some(seedOrigin)
    requires Levels(options, queue, depths)
    requires Provenance(browser, seed, options, queue, scanned, depths)
    requires Closure(browser, seed, seedOrigin, options, queue, visited, scanned, depths)
    ensures Levels(options, queue[1..], depths)
    ensures Provenance(browser, seed, options, queue[1..], scanned, depths)
    ensures Closure(browser, seed, seedOrigin, options, queue[1..], visited, scanned, depths)
  {
    var rest := queue[1..];
    forall u | Pending(queue, u) ensures Settled(browser, seedOrigin, visited, rest, u) {
      var i :| 0 <= i < |queue| && queue[i].url == u;
      if i > 0 { assert rest[i - 1].url == u; }
    }
    forall i | 0 <= i < |rest| ensures Queued(browser, seed, options, scanned, depths, rest[i]) {
      assert rest[i] == queue[i + 1];
    }
  }

  /** The queue after visiting its first task: the rest, then the new links when the page is expanded. */
  ghost function NextQueue(browser: Browser, options: Options, queue: seq<Task>, visited: set<string>): seq<Task>
    requires |queue| > 0
  {
    var t := queue[0];
    queue[1..] + (if t.depth < options.depth then NewTasks(browser.linksOf(t.url), visited + {t.url}, t.depth) else [])
  }

  /** Visiting a new URL keeps scannedPages and visitedUrls in step. */
  lemma VisitBookkeeping(visited: set<string>, scanned: seq<string>, depths: seq<int>, url: string, d: int)
    requires url !in visited
    requires Bookkeeping(visited, scanned, depths)
    ensures Bookkeeping(visited + {url}, scanned + [url], depths + [d])
  {
    var scanned' := scanned + [url];
    forall i, j | 0 <= i < j < |scanned'| ensures scanned'[i] != scanned'[j] {
      if j == |scanned| { assert scanned[i] in visited; }
    }
  }

  /** Appending tasks one level below the window keeps a depth-sorted queue within the window. */
  lemma AppendNextLevel(rest: seq<Task>, added: seq<Task>, d: int, cap: nat)
    requires forall i :: 0 <= i < |rest| ==> d <= rest[i].depth <= d + 1 && 0 <= rest[i].depth <= cap
    requires forall i, j :: 0 <= i < j < |rest| ==> rest[i].depth <= rest[j].depth
    requires forall t :: t in added ==> t.depth == d + 1
    requires added != [] ==> 0 <= d + 1 <= cap
    ensures forall i :: 0 <= i < |rest + added| ==>
      d <= (rest + added)[i].depth <= d + 1 && 0 <= (rest + added)[i].depth <= cap
    ensures forall i, j :: 0 <= i < j < |rest + added| ==> (rest + added)[i].depth <= (rest + added)[j].depth
  {
    var q := rest + added;
    forall i | 0 <= i < |q| ensures d <= q[i].depth <= d + 1 && 0 <= q[i].depth <= cap {
      if i >= |rest| { assert q[i] in added; }
    }
    forall i, j | 0 <= i < j < |q| ensures q[i].depth <= q[j].depth {
      if j >= |rest| { assert q[j] in added; }
    }
  }

  /** Visiting the popped task keeps the breadth-first depth discipline. */
  lemma VisitLevels(browser: Browser, options: Options, queue: seq<Task>, visited: set<string>, depths: seq<int>)
    requires |queue| > 0
    requires Levels(options, queue, depths)
    ensures Levels(options, NextQueue(browser, options, queue, visited), depths + [queue[0].depth])
  {
    var t := queue[0];
    var added := if t.depth < options.depth then NewTasks(browser.linksOf(t.url), visited + {t.url}, t.depth) else [];
    var rest := queue[1..];
    forall i | 0 <= i < |rest| ensures t.depth <= rest[i].depth <= t.depth + 1 {
      assert rest[i] == queue[i + 1];
    }
    AppendNextLevel(rest, added, t.depth, MaxZero(options.depth));
    assert NextQueue(browser, options, queue, visited) == rest + added;
  }

  /** A visited page that was reached before is still reached once another page is appended. */
  lemma ReachedKept(browser: Browser, seed: string, options: Options, scanned: seq<string>, depths: seq<int>,
                    url: string, d: int, i: int)
    requires 0 <= i < |scanned| == |depths|
    requires Reached(browser, seed, options, scanned, depths, i)
    ensures Reached(browser, seed, options, scanned + [url], depths + [d], i)
  {
    var scanned', depths' := scanned + [url], depths + [d];
    if !(scanned[i] == seed && depths[i] == 0) {
      var j :| 0 <= j < i && depths[j] < options.depth && depths[i] == depths[j] + 1 &&
        LinksTo(browser, scanned[j], scanned[i]);
      assert scanned'[j] == scanned[j] && depths'[j] == depths[j];
    }
  }

  /** A queued task is still accounted for once another page is appended. */
  lemma QueuedKept(browser: Browser, seed: string, options: Options, scanned: seq<string>, depths: seq<int>,
                   url: string, d: int, q: Task)
    requires |scanned| == |depths|
    requires Queued(browser, seed, options, scanned, depths, q)
    ensures Queued(browser, seed, options, scanned + [url], depths + [d], q)
  {
    var scanned', depths' := scanned + [url], depths + [d];
    if q != Task(seed, 0) {
      var j :| 0 <= j < |scanned| && depths[j] < options.depth && q.depth == depths[j] + 1 &&
        LinksTo(browser, scanned[j], q.url);
      assert scanned'[j] == scanned[j] && depths'[j] == depths[j];
    }
  }

  /** Visiting the popped task keeps every page and task traced back to the seed. */
  lemma VisitProvenance(browser: Browser, seed: string, options: Options, queue: seq<Task>,
                        visited: set<string>, scanned: seq<string>, depths: seq<int>)
    requires |queue| > 0 && |scanned| == |depths|
    requires Provenance(browser, seed, options, queue, scanned, depths)
    ensures Provenance(browser, seed, options, NextQueue(browser, options, queue, visited),
                       scanned + [queue[0].url], depths + [queue[0].depth])
  {
    var t := queue[0];
    var scanned', depths' := scanned + [t.url], depths + [t.depth];
    var added := if t.depth < options.depth then NewTasks(browser.linksOf(t.url), visited + {t.url}, t.depth) else [];
    var queue' := NextQueue(browser, options, queue, visited);
    assert queue' == queue[1..] + added;
    var n := |scanned|;
    forall i | 0 <= i < |scanned'| ensures Reached(browser, seed, options, scanned', depths', i) {
      if i < n {
        ReachedKept(browser, seed, options, scanned, depths, t.url, t.depth, i);
      } else {
        QueuedKept(browser, seed, options, scanned, depths, t.url, t.depth, t);
      }
    }
    NewTasksFromLinks(browser.linksOf(t.url), visited + {t.url}, t.depth);
    forall i | 0 <= i < |queue'| ensures Queued(browser, seed, options, scanned', depths', queue'[i]) {
      if i < |queue| - 1 {
        assert queue'[i] == queue[i + 1];
        QueuedKept(browser, seed, options, scanned, depths, t.url, t.depth, queue'[i]);
      } else {
        assert queue'[i] in added;
        assert scanned'[n] == t.url && depths'[n] == t.depth;
      }
    }
  }

  /** Visiting the popped task keeps the seed and every expanded link settled. */
  lemma VisitClosure(browser: Browser, seed: string, seedOrigin: string, options: Options, queue: seq<Task>,
                     visited: set<string>, scanned: seq<string>, depths: seq<int>)
    requires |queue| > 0 && |scanned| == |depths|
    requires Closure(browser, seed, seedOrigin, options, queue, visited, scanned, depths)
    ensures Closure(browser, seed, seedOrigin, options, NextQueue(browser, options, queue, visited),
                    visited + {queue[0].url}, scanned + [queue[0].url], depths + [queue[0].depth])
  {
    var t := queue[0];
    var visited', scanned', depths' := visited + {t.url}, scanned + [t.url], depths + [t.depth];
    var added := if t.depth < options.depth then NewTasks(browser.linksOf(t.url), visited', t.depth) else [];
    var queue' := NextQueue(browser, options, queue, visited);
    assert queue' == queue[1..] + added;
    var n := |scanned|;
    forall u | Settled(browser, seedOrigin, visited, queue, u)
      ensures Settled(browser, seedOrigin, visited', queue', u)
    {
      if u !in visited && browser.originOf(u) == Some(seedOrigin) {
        var i :| 0 <= i < |queue| && queue[i].url == u;
        if i > 0 { assert queue'[i - 1].url == u; }
      }
    }
    NewTasksFromLinks(browser.linksOf(t.url), visited', t.depth);
    forall j, k | 0 <= j < |scanned'| && depths'[j] < options.depth && 0 <= k < |browser.linksOf(scanned'[j])|
      ensures Settled(browser, seedOrigin, visited', queue', StripFragment(browser.linksOf(scanned'[j])[k]))
    {
      var u := StripFragment(browser.linksOf(scanned'[j])[k]);
      if j < n {
        assert scanned'[j] == scanned[j] && depths'[j] == depths[j];
        assert Settled(browser, seedOrigin, visited, queue, u);
      } else if u !in visited' {
        var m := |queue| - 1 + NewTasksIndex(added, Task(u, t.depth + 1));
        assert queue'[m].url == u;
      }
    }
  }

  /** The position of a task known to be in a sequence. */
  function NewTasksIndex(tasks: seq<Task>, t: Task): (i: nat)
    requires t in tasks
    ensures i < |tasks| && tasks[i] == t
  {
    if tasks[0] == t then 0 else 1 + NewTasksIndex(tasks[1..], t)
  }

  /** Everything the crawl loop keeps true between iterations, about the frontier and the pages behind it. */
  ghost predicate Frontier(browser: Browser, seed: string, seedOrigin: string, options: Options, queue: seq<Task>,
                           visited: set<string>, scanned: seq<string>, depths: seq<int>)
  {
    && Bookkeeping(visited, scanned, depths)
    && (forall u :: u in visited ==> browser.originOf(u) == Some(seedOrigin))
    && Levels(options, queue, depths)
    && Provenance(browser, seed, options, queue, scanned, depths)
    && Closure(browser, seed, seedOrigin, options, queue, visited, scanned, depths)
  }

  /** The frontier before the first iteration: only the seed task is queued. */
  lemma FrontierInit(browser: Browser, seed: string, seedOrigin: string, options: Options)
    ensures Frontier(browser, seed, seedOrigin, options, [Task(seed, 0)], {}, [], [])
  {
    assert [Task(seed, 0)][0].url == seed;
  }

  /** Skipping a visited or foreign task keeps the frontier invariant. */
  lemma SkipKeepsFrontier(browser: Browser, seed: string, seedOrigin: string, options: Options, queue: seq<Task>,
                          visited: set<string>, scanned: seq<string>, depths: seq<int>)
    requires |queue| > 0
    requires queue[0].url in visited || browser.originOf(queue[0].url) != Some(seedOrigin)
    requires Frontier(browser, seed, seedOrigin, options, queue, visited, scanned, depths)
    ensures Frontier(browser, seed, seedOrigin, options, queue[1..], visited, scanned, depths)
  {
    SkipStep(browser, seed, seedOrigin, options, queue, visited, scanned, depths);
  }

  /** Visiting a new same-origin task keeps the frontier invariant. */
  lemma VisitKeepsFrontier(browser: Browser, seed: string, seedOrigin: string, options: Options, queue: seq<Task>,
                           visited: set<string>, scanned: seq<string>, depths: seq<int>)
    requires |queue| > 0
    requires queue[0].url !in visited && browser.originOf(queue[0].url) == Some(seedOrigin)
    requires Frontier(browser, seed, seedOrigin, options, queue, visited, scanned, depths)
    ensures Frontier(browser, seed, seedOrigin, options, NextQueue(browser, options, queue, visited),
                     visited + {queue[0].url}, scanned + [queue[0].url], depths + [queue[0].depth])
  {
    var t := queue[0];
    VisitBookkeeping(visited, scanned, depths, t.url, t.depth);
    VisitLevels(browser, options, queue, visited, depths);
    VisitProvenance(browser, seed, options, queue, visited, scanned, depths);
    VisitClosure(browser, seed, seedOrigin, options, queue, visited, scanned, depths);
  }

  /** Visiting one more page absorbs its coverage with the new page count. */
  lemma AbsorbVisitsSnoc(browser: Browser, pages: seq<string>, url: string)
    ensures AbsorbVisits(browser, pages + [url]) ==
      AbsorbAll(AbsorbVisits(browser, pages), browser.coverageOf(url), |pages| + 1)
  {
    var p := pages + [url];
    assert p[..|p| - 1] == pages && p[|p| - 1] == url;
  }

  /** Once the queue is empty, the seed and every expanded link are visited or filtered out. */
  lemma ClosureAtExit(browser: Browser, seed: string, seedOrigin: string, options: Options,
                      visited: set<string>, scanned: seq<string>, depths: seq<int>)
    requires |scanned| == |depths|
    requires Closure(browser, seed, seedOrigin, options, [], visited, scanned, depths)
    ensures seed in visited || browser.originOf(seed) != Some(seedOrigin)
    ensures forall j, k :: 0 <= j < |scanned| && depths[j] < options.depth && 0 <= k < |browser.linksOf(scanned[j])| ==>
      var u := StripFragment(browser.linksOf(scanned[j])[k]);
      u in visited || browser.originOf(u) != Some(seedOrigin)
  {
    forall j, k | 0 <= j < |scanned| && depths[j] < options.depth && 0 <= k < |browser.linksOf(scanned[j])|
      ensures var u := StripFragment(browser.linksOf(scanned[j])[k]);
        u in visited || browser.originOf(u) != Some(seedOrigin)
    {
      assert Settled(browser, seedOrigin, visited, [], StripFragment(browser.linksOf(scanned[j])[k]));
    }
  }

  /**
   * One visit of the crawl loop (src/scanner.ts:108-161): mark the URL
   * visited, append it to the scanned pages, absorb the coverage its page
   * reports, and queue its links when its depth is below the cap. The
   * frontier invariant carries over to the new state.
   */
  method VisitPage(browser: Browser, seed: string, seedOrigin: string, options: Options, task: Task, rest: seq<Task>,
                   visited: set<string>, scanned: seq<string>, store: Store, ghost depths: seq<int>)
    returns (visited': set<string>, scanned': seq<string>, store': Store, queue': seq<Task>, ghost depths': seq<int>)
    requires task.url !in visited && browser.originOf(task.url) == Some(seedOrigin)
    requires Frontier(browser, seed, seedOrigin, options, [task] + rest, visited, scanned, depths)
    requires store == AbsorbVisits(browser, scanned)
    ensures visited' == visited + {task.url} && |visited'| == |visited| + 1
    ensures scanned' == scanned + [task.url]
    ensures store' == AbsorbVisits(browser, scanned')
    ensures queue' == NextQueue(browser, options, [task] + rest, visited)
    ensures Frontier(browser, seed, seedOrigin, options, queue', visited', scanned', depths')
  {
    ghost var queue := [task] + rest;
    assert queue[0] == task && queue[1..] == rest;
    VisitKeepsFrontier(browser, seed, seedOrigin, options, queue, visited, scanned, depths);
    AbsorbVisitsSnoc(browser, scanned, task.url);
    visited' := visited + {task.url};
    scanned' := scanned + [task.url];
    depths' := depths + [task.depth];

    var coverage := browser.coverageOf(task.url);
    store' := AbsorbPage(store, coverage, |visited'|);

    if task.depth < options.depth {
      var hrefs := browser.linksOf(task.url);
      queue' := EnqueueLinks(rest, hrefs, visited', task.depth);
    } else {
      queue' := rest;
      assert queue' == rest + [];
    }
  }

  /**
   * One iteration of the crawl loop (src/scanner.ts:99-161): shift the
   * first task off the queue; skip it when its URL is already visited or
   * its origin is not the seed's (or cannot be parsed); otherwise visit it.
   */
  method CrawlStep(browser: Browser, seed: string, seedOrigin: string, options: Options, queue: seq<Task>,
                   visited: set<string>, scanned: seq<string>, store: Store, ghost depths: seq<int>)
    returns (queue': seq<Task>, visited': set<string>, scanned': seq<string>, store': Store, ghost depths': seq<int>)
    requires |queue| > 0
    requires Frontier(browser, seed, seedOrigin, options, queue, visited, scanned, depths)
    requires store == AbsorbVisits(browser, scanned)
    ensures Frontier(browser, seed, seedOrigin, options, queue', visited', scanned', depths')
    ensures store' == AbsorbVisits(browser, scanned')
    ensures if queue[0].url in visited || browser.originOf(queue[0].url) != Some(seedOrigin)
      then queue' == queue[1..] && visited' == visited && scanned' == scanned
      else
        && visited' == visited + {queue[0].url} && |visited'| == |visited| + 1
        && scanned' == scanned + [queue[0].url]
        && queue' == NextQueue(browser, options, queue, visited)
  {
    var task := queue[0];
    queue' := queue[1..];
    visited', scanned', store', depths' := visited, scanned, store, depths;
    if task.url in visited {
      SkipKeepsFrontier(browser, seed, seedOrigin, options, queue, visited, scanned, depths);
      return;
    }
    var origin := browser.originOf(task.url);
    if origin.None? || origin.value != seedOrigin {
      SkipKeepsFrontier(browser, seed, seedOrigin, options, queue, visited, scanned, depths);
      return;
    }
    assert queue == [task] + queue';
    visited', scanned', store', queue', depths' := VisitPage(browser, seed, seedOrigin, options, task, queue', visited, scanned, store, depths);
  }

  /**
   * The pages the crawl loop of src/scanner.ts:98-163 visits, in order,
   * when it continues from this queue, visited set and page list: while
   * the queue is not empty and the budget is not spent, shift the first
   * task, skip it when visited or foreign, otherwise visit it and queue
   * its links.
   */
  ghost function Run(browser: Browser, seedOrigin: string, options: Options,
                     queue: seq<Task>, visited: set<string>, scanned: seq<string>): seq<string>
    decreases options.maxPages - |visited|, |queue|
  {
    if |queue| == 0 || |visited| >= options.maxPages then scanned
    else
      var t := queue[0];
      if t.url in visited || browser.originOf(t.url) != Some(seedOrigin) then
        Run(browser, seedOrigin, options, queue[1..], visited, scanned)
      else
        Run(browser, seedOrigin, options, NextQueue(browser, options, queue, visited),
            visited + {t.url}, scanned + [t.url])
  }

  /** A run only ever appends to the pages already scanned. */
  lemma {:induction false} RunExtends(browser: Browser, seedOrigin: string, options: Options,
                                      queue: seq<Task>, visited: set<string>, scanned: seq<string>)
    ensures scanned <= Run(browser, seedOrigin, options, queue, visited, scanned)
    decreases options.maxPages - |visited|, |queue|
  {
    if |queue| > 0 && |visited| < options.maxPages {
      var t := queue[0];
      if t.url in visited || browser.originOf(t.url) != Some(seedOrigin) {
        RunExtends(browser, seedOrigin, options, queue[1..], visited, scanned);
      } else {
        RunExtends(browser, seedOrigin, options, NextQueue(browser, options, queue, visited),
                   visited + {t.url}, scanned + [t.url]);
      }
    }
  }

  /** The first href not yet visited is the first task queued. */
  lemma {:induction false} NewTasksHead(hrefs: seq<string>, visited: set<string>, depth: int)
    requires |hrefs| > 0 && StripFragment(hrefs[0]) !in visited
    ensures |NewTasks(hrefs, visited, depth)| > 0
    ensures NewTasks(hrefs, visited, depth)[0] == Task(StripFragment(hrefs[0]), depth + 1)
    decreases |hrefs|
  {
    var n := |hrefs| - 1;
    if n == 0 {
      assert hrefs[..n] == [];
    } else {
      assert hrefs[..n][0] == hrefs[0];
      NewTasksHead(hrefs[..n], visited, depth);
    }
  }

  /**
   * First in, first out (src/scanner.ts:99, 159): when the seed's first
   * link is a new page of the same origin, it is the second page visited,
   * before any later link of the seed.
   */
  lemma FirstLinkVisitedSecond(browser: Browser, seed: string, seedOrigin: string, options: Options)
    requires browser.originOf(seed) == Some(seedOrigin)
    requires options.maxPages >= 2 && options.depth >= 1
    requires |browser.linksOf(seed)| > 0
    requires StripFragment(browser.linksOf(seed)[0]) != seed
    requires browser.originOf(StripFragment(browser.linksOf(seed)[0])) == Some(seedOrigin)
    ensures var pages := Run(browser, seedOrigin, options, [Task(seed, 0)], {}, []);
      |pages| >= 2 && pages[0] == seed && pages[1] == StripFragment(browser.linksOf(seed)[0])
  {
    var u := StripFragment(browser.linksOf(seed)[0]);
    var q1 := NextQueue(browser, options, [Task(seed, 0)], {});
    assert q1 == [Task(seed, 0)][1..] + NewTasks(browser.linksOf(seed), {} + {seed}, 0);
    NewTasksHead(browser.linksOf(seed), {} + {seed}, 0);
    assert q1[0] == Task(u, 1);
    assert Run(browser, seedOrigin, options, [Task(seed, 0)], {}, [])
        == Run(browser, seedOrigin, options, q1, {} + {seed}, [] + [seed]);
    assert |{} + {seed}| == 1;
    var q2 := NextQueue(browser, options, q1, {} + {seed});
    assert Run(browser, seedOrigin, options, q1, {} + {seed}, [] + [seed])
        == Run(browser, seedOrigin, options, q2, {} + {seed} + {u}, [] + [seed] + [u]);
    RunExtends(browser, seedOrigin, options, q2, {} + {seed} + {u}, [] + [seed] + [u]);
    assert [] + [seed] + [u] == [seed, u];
  }

  /**
   * The crawl loop of src/scanner.ts:98-163. Returns the visited set, the
   * pages in visit order and the coverage map; the ghost `depths` gives the
   * link distance at which each page was visited.
   */
  method CrawlPages(seed: string, seedOrigin: string, options: Options, browser: Browser)
    returns (visited: set<string>, scanned: seq<string>, store: Store, ghost depths: seq<int>)
    // bookkeeping: scannedPages lists the visited set once each, in visit order
    ensures Bookkeeping(visited, scanned, depths)
    // budget
    ensures |visited| <= MaxZero(options.maxPages)
    ensures options.maxPages > 0 && browser.originOf(seed) == Some(seedOrigin) ==>
      |scanned| > 0 && scanned[0] == seed
    // origin
    ensures forall u :: u in visited ==> browser.originOf(u) == Some(seedOrigin)
    // depth, breadth-first order, and where each page came from
    ensures forall i :: 0 <= i < |depths| ==> 0 <= depths[i] <= MaxZero(options.depth)
    ensures forall i, j :: 0 <= i < j < |depths| ==> depths[i] <= depths[j]
    ensures forall i :: 0 <= i < |scanned| ==> Reached(browser, seed, options, scanned, depths, i)
    // nothing reachable is left out unless the budget ran out
    ensures |visited| < options.maxPages ==>
      seed in visited || browser.originOf(seed) != Some(seedOrigin)
    ensures |visited| < options.maxPages ==>
      forall j, k :: 0 <= j < |scanned| && depths[j] < options.depth && 0 <= k < |browser.linksOf(scanned[j])| ==>
        var u := StripFragment(browser.linksOf(scanned[j])[k]);
        u in visited || browser.originOf(u) != Some(seedOrigin)
    // without link following only the seed is visited
    ensures options.depth <= 0 ==> |scanned| <= 1 && forall i :: 0 <= i < |scanned| ==> scanned[i] == seed
    // the pages in the order the FIFO queue visits them
    ensures scanned == Run(browser, seedOrigin, options, [Task(seed, 0)], {}, [])
    // coverage
    ensures store == AbsorbVisits(browser, scanned)
  {
    var queue := [Task(seed, 0)];
    visited, scanned, store, depths := {}, [], Empty, [];
    EmptyValid();
    FrontierInit(browser, seed, seedOrigin, options);
    while |queue| > 0 && |visited| < options.maxPages
      invariant Frontier(browser, seed, seedOrigin, options, queue, visited, scanned, depths)
      invariant |visited| <= MaxZero(options.maxPages)
      invariant options.maxPages > 0 && browser.originOf(seed) == Some(seedOrigin) ==>
        if |scanned| == 0 then queue == [Task(seed, 0)] else scanned[0] == seed
      invariant store == AbsorbVisits(browser, scanned)
      invariant Run(browser, seedOrigin, options, queue, visited, scanned)
        == Run(browser, seedOrigin, options, [Task(seed, 0)], {}, [])
      decreases options.maxPages - |visited|, |queue|
    {
      queue, visited, scanned, store, depths := CrawlStep(browser, seed, seedOrigin, options, queue, visited, scanned, store, depths);
    }
    if |visited| < options.maxPages {
      ClosureAtExit(browser, seed, seedOrigin, options, visited, scanned, depths);
    }
    if options.depth <= 0 {
      ShallowCrawl(browser, seed, options, scanned, depths);
    }
  }

  /**
   * With a depth cap of 0 no page's links are followed, so every page
   * reached is the seed, and since pages are not repeated there is at most
   * one.
   */
  lemma ShallowCrawl(browser: Browser, seed: string, options: Options, scanned: seq<string>, depths: seq<int>)
    requires options.depth <= 0 && |scanned| == |depths| && Distinct(scanned)
    requires forall i :: 0 <= i < |depths| ==> 0 <= depths[i]
    requires forall i :: 0 <= i < |scanned| ==> Reached(browser, seed, options, scanned, depths, i)
    ensures forall i :: 0 <= i < |scanned| ==> scanned[i] == seed
    ensures |scanned| <= 1
  {
    forall i | 0 <= i < |scanned| ensures scanned[i] == seed {
      assert Reached(browser, seed, options, scanned, depths, i);
    }
    if |scanned| > 1 {
      DistinctPair(scanned);
      assert false;
    }
  }

  lemma DistinctPair(s: seq<string>)
    requires Distinct(s) && |s| > 1
    ensures s[0] != s[1]
  {
  }
}

=== FILE: ranges.dfy ===
/**
 * The range merger of src/scanner.ts (`mergeRanges`): half-open byte ranges
 * are sorted by start and folded left to right, joining every range that
 * overlaps or touches the one before it.
 */
module Ranges {
  /** A half-open interval [start, end) of offsets into a stylesheet's text. */
  datatype Range = Range(start: int, end: int)

  function Max(a: int, b: int): int { if a < b then b else a }

  predicate AllWellFormed(rs: seq<Range>) {
    forall i :: 0 <= i < |rs| ==> rs[i].start <= rs[i].end
  }

  /** Every range lies within [lo, hi]. */
  predicate Within(rs: seq<Range>, lo: int, hi: int) {
    forall i :: 0 <= i < |rs| ==> lo <= rs[i].start && rs[i].end <= hi
  }

  /**
   * The shape mergeRanges promises: every range is well formed and each one
   * starts strictly after every earlier one ends, so no two of them overlap
   * or touch.
   */
  predicate Separated(rs: seq<Range>) {
    AllWellFormed(rs) &&
    forall i, j :: 0 <= i < j < |rs| ==> rs[i].end < rs[j].start
  }

  predicate SortedByStart(rs: seq<Range>) {
    forall i, j :: 0 <= i < j < |rs| ==> rs[i].start <= rs[j].start
  }

  predicate InSpan(r: Range, k: int) { r.start <= k < r.end }

  /** The offsets one range covers. */
  ghost function Span(r: Range): iset<int> {
    iset k: int | InSpan(r, k)
  }

  /** The offsets a collection of ranges covers. */
  ghost function Offsets(rs: seq<Range>): iset<int>
    decreases |rs|
  {
    if rs == [] then iset{} else Offsets(rs[..|rs| - 1]) + Span(rs[|rs| - 1])
  }

  lemma {:induction false} OffsetsAppend(a: seq<Range>, b: seq<Range>)
    ensures Offsets(a + b) == Offsets(a) + Offsets(b)
    decreases |b|
  {
    if b == [] {
      assert a + b == a;
    } else {
      var b' := b[..|b| - 1];
      assert (a + b)[..|a + b| - 1] == a + b';
      OffsetsAppend(a, b');
    }
  }

  lemma {:induction false} SpanInOffsets(rs: seq<Range>, i: int)
    requires 0 <= i < |rs|
    ensures Span(rs[i]) <= Offsets(rs)
    decreases |rs|
  {
    if i < |rs| - 1 {
      SpanInOffsets(rs[..|rs| - 1], i);
    }
  }

  /** Joining two ranges where the second starts inside (or at the end of) the first. */
  lemma SpanJoin(p: Range, c: Range)
    requires p.start <= c.start <= p.end
    ensures Span(Range(p.start, Max(p.end, c.end))) == Span(p) + Span(c)
  {
    var j := Range(p.start, Max(p.end, c.end));
    forall k | k in Span(j) ensures k in Span(p) + Span(c) {
      if k >= p.end { assert k in Span(c); } else { assert k in Span(p); }
    }
    forall k | k in Span(p) + Span(c) ensures k in Span(j) {
      if k in Span(p) { assert j.start <= k < j.end; } else { assert j.start <= k < j.end; }
    }
  }

  // ---------------------------------------------------------------------
  // Sorting. `[...ranges].sort((a, b) => a.start - b.start)` is the library's
  // stable sort; it is modelled by a stable insertion sort on starts.
  // ---------------------------------------------------------------------

  /** Inserts x before the first element whose start is not smaller than x's. */
  function Insert(x: Range, rs: seq<Range>): (r: seq<Range>)
    requires SortedByStart(rs)
    ensures SortedByStart(r)
    ensures multiset(r) == multiset(rs) + multiset{x}
    ensures |r| == |rs| + 1 && (r[0] == x || (rs != [] && r[0] == rs[0]))
    decreases |rs|
  {
    if rs == [] || x.start <= rs[0].start then
      ConsSorted(x, rs);
      [x] + rs
    else
      var rest := Insert(x, rs[1..]);
      ConsSorted(rs[0], rest);
      assert rs == [rs[0]] + rs[1..];
      [rs[0]] + rest
  }

  /** A range that starts no later than the head of a sorted sequence can go in front. */
  lemma ConsSorted(y: Range, s: seq<Range>)
    requires SortedByStart(s) && (s != [] ==> y.start <= s[0].start)
    ensures SortedByStart([y] + s)
  {
    var t := [y] + s;
    forall i, j | 0 <= i < j < |t| ensures t[i].start <= t[j].start {
      if i == 0 && j > 1 { assert s[0].start <= s[j - 1].start; }
    }
  }

  lemma {:induction false} InsertOffsets(x: Range, rs: seq<Range>)
    requires SortedByStart(rs)
    ensures Offsets(Insert(x, rs)) == Offsets(rs) + Span(x)
    decreases |rs|
  {
    if rs == [] || x.start <= rs[0].start {
      assert Offsets([x]) == Span(x) by { assert [x][..0] == []; }
      OffsetsAppend([x], rs);
    } else {
      var rest := rs[1..];
      var head := Span(rs[0]);
      assert Offsets([rs[0]]) == head by { assert [rs[0]][..0] == []; }
      assert Offsets(Insert(x, rs)) == head + Offsets(rest) + Span(x) by {
        InsertOffsets(x, rest);
        OffsetsAppend([rs[0]], Insert(x, rest));
      }
      assert Offsets(rs) == head + Offsets(rest) by {
        OffsetsAppend([rs[0]], rest);
        assert rs == [rs[0]] + rest;
      }
    }
  }

  /** The sorted copy `[...ranges].sort(...)`: sorted by start and a permutation of its input. */
  function SortByStart(rs: seq<Range>): (r: seq<Range>)
    ensures SortedByStart(r)
    ensures multiset(r) == multiset(rs)
    ensures |r| == |rs|
    decreases |rs|
  {
    if rs == [] then []
    else
      assert rs == [rs[0]] + rs[1..];
      Insert(rs[0], SortByStart(rs[1..]))
  }

  lemma {:induction false} SortOffsets(rs: seq<Range>)
    ensures Offsets(SortByStart(rs)) == Offsets(rs)
    decreases |rs|
  {
    if rs != [] {
      var rest := rs[1..];
      assert Offsets(SortByStart(rs)) == Offsets(SortByStart(rest)) + Span(rs[0]) by {
        InsertOffsets(rs[0], SortByStart(rest));
      }
      assert Offsets(SortByStart(rest)) == Offsets(rest) by {
        SortOffsets(rest);
      }
      assert Offsets(rs) == Span(rs[0]) + Offsets(rest) by {
        assert Offsets([rs[0]]) == Span(rs[0]) by { assert [rs[0]][..0] == []; }
        OffsetsAppend([rs[0]], rest);
        assert rs == [rs[0]] + rest;
      }
    }
  }

  lemma {:induction false} SortAlreadySorted(rs: seq<Range>)
    requires SortedByStart(rs)
    ensures SortByStart(rs) == rs
    decreases |rs|
  {
    if rs != [] {
      SortAlreadySorted(rs[1..]);
      assert rs == [rs[0]] + rs[1..];
    }
  }

  // ---------------------------------------------------------------------
  // The fold of src/scanner.ts:66-76.
  // ---------------------------------------------------------------------

  /**
   * One iteration of the loop body: if the current range starts no later
   * than the previous one ends, the previous end becomes the larger of the
   * two ends; otherwise the current range is pushed.
   */
  function Absorb(merged: seq<Range>, current: Range): seq<Range>
    requires merged != []
  {
    var previous := merged[|merged| - 1];
    if current.start <= previous.end then
      merged[..|merged| - 1] + [Range(previous.start, Max(previous.end, current.end))]
    else
      merged + [current]
  }

  /** `merged` after the loop has run over `sorted`, starting from `[first]`. */
  function Fold(first: Range, sorted: seq<Range>): (r: seq<Range>)
    ensures r != []
    decreases |sorted|
  {
    if sorted == [] then [first]
    else Absorb(Fold(first, sorted[..|sorted| - 1]), sorted[|sorted| - 1])
  }

  /**
   * `mergeRanges(ranges)`. Note that the loop starts at the first sorted
   * range itself, so that range is first compared with its own copy.
   */
  function Merge(ranges: seq<Range>): (r: seq<Range>)
    ensures r == [] <==> ranges == []
  {
    if ranges == [] then []
    else
      var sorted := SortByStart(ranges);
      Fold(sorted[0], sorted)
  }

  /** The last accumulated range starts no later than the last range folded in. */
  lemma {:induction false} FoldLastStart(first: Range, s: seq<Range>)
    requires forall i :: 0 <= i < |s| ==> first.start <= s[i].start
    requires SortedByStart(s)
    ensures var f := Fold(first, s); f[|f| - 1].start <= (if s == [] then first.start else s[|s| - 1].start)
    decreases |s|
  {
    if s != [] {
      FoldLastStart(first, s[..|s| - 1]);
    }
  }

  /** The fold covers exactly what its inputs cover, provided they come sorted. */
  lemma {:induction false} FoldOffsets(first: Range, s: seq<Range>)
    requires forall i :: 0 <= i < |s| ==> first.start <= s[i].start
    requires SortedByStart(s)
    ensures Offsets(Fold(first, s)) == Span(first) + Offsets(s)
    decreases |s|
  {
    if s == [] {
      assert Offsets([first]) == Span(first) by { assert [first][..0] == []; }
    } else {
      var s' := s[..|s| - 1];
      var c := s[|s| - 1];
      FoldOffsets(first, s');
      FoldLastStart(first, s');
      var f := Fold(first, s');
      var n := |f|;
      var p := f[n - 1];
      var init := f[..n - 1];
      assert p.start <= c.start;
      assert f == init + [p];
      assert Offsets(f) == Offsets(init) + Span(p);
      assert Offsets(s) == Offsets(s') + Span(c);
      if c.start <= p.end {
        var j := Range(p.start, Max(p.end, c.end));
        SpanJoin(p, c);
        assert Fold(first, s) == init + [j];
        assert (init + [j])[..n - 1] == init;
        calc {
          Offsets(init + [j]);
          Offsets(init) + Span(j);
          Offsets(init) + Span(p) + Span(c);
          Offsets(f) + Span(c);
        }
      } else {
        assert Fold(first, s) == f + [c];
        assert (f + [c])[..n] == f;
      }
    }
  }

  /** Each fold step keeps the accumulated ranges well formed and separated. */
  lemma {:induction false} FoldSeparated(first: Range, s: seq<Range>)
    requires first.start <= first.end
    requires AllWellFormed(s)
    ensures Separated(Fold(first, s))
    decreases |s|
  {
    if s != [] {
      var s' := s[..|s| - 1];
      FoldSeparated(first, s');
      var f := Fold(first, s');
      var c := s[|s| - 1];
      var n := |f|;
      var p := f[n - 1];
      if c.start <= p.end {
        var j := Range(p.start, Max(p.end, c.end));
        var r := f[..n - 1] + [j];
        assert r == Fold(first, s);
        forall a, b | 0 <= a < b < |r| ensures r[a].end < r[b].start {
          assert r[a] == f[a];
          if b < n - 1 { assert r[b] == f[b]; } else { assert r[b].start == f[n - 1].start; }
        }
        forall a | 0 <= a < |r| ensures r[a].start <= r[a].end {
          if a < n - 1 { assert r[a] == f[a]; }
        }
      } else {
        var r := f + [c];
        assert r == Fold(first, s);
        forall a, b | 0 <= a < b < |r| ensures r[a].end < r[b].start {
          assert r[a] == f[a];
          if b < n { assert r[b] == f[b]; }
          else if a < n - 1 { assert f[a].end < p.start <= p.end; }
        }
        forall a | 0 <= a < |r| ensures r[a].start <= r[a].end {
          if a < n { assert r[a] == f[a]; }
        }
      }
    }
  }

  /** The fold never produces more ranges than it reads once the first one is absorbed. */
  lemma {:induction false} FoldLength(first: Range, s: seq<Range>)
    requires s != [] && first == s[0] && first.start <= first.end
    ensures |Fold(first, s)| <= |s|
    decreases |s|
  {
    if |s| > 1 {
      FoldLength(first, s[..|s| - 1]);
    } else {
      assert s[..0] == [];
    }
  }

  /** On separated input the fold gives its input back. */
  lemma {:induction false} FoldOfSeparated(s: seq<Range>, k: nat)
    requires Separated(s) && 1 <= k <= |s|
    ensures Fold(s[0], s[..k]) == s[..k]
    decreases k
  {
    if k == 1 {
      assert s[..1][..0] == [];
      assert Fold(s[0], []) == [s[0]];
    } else {
      FoldOfSeparated(s, k - 1);
      assert s[..k][..k - 1] == s[..k - 1];
      assert s[..k - 1] + [s[k - 1]] == s[..k];
    }
  }

  /** The merged ranges cover exactly the offsets the input covers. */
  lemma MergeOffsets(ranges: seq<Range>)
    ensures Offsets(Merge(ranges)) == Offsets(ranges)
  {
    if ranges != [] {
      var sorted := SortByStart(ranges);
      FoldOffsets(sorted[0], sorted);
      SpanInOffsets(sorted, 0);
      SortOffsets(ranges);
    }
  }

  /**
   * For well-formed input the result is separated (hence sorted by start,
   * with no two ranges overlapping or touching) and no longer than the input.
   */
  lemma MergeSeparated(ranges: seq<Range>)
    requires AllWellFormed(ranges)
    ensures Separated(Merge(ranges))
    ensures |Merge(ranges)| <= |ranges|
  {
    if ranges != [] {
      var sorted := SortByStart(ranges);
      forall i | 0 <= i < |sorted| ensures sorted[i].start <= sorted[i].end {
        assert sorted[i] in multiset(ranges);
      }
      FoldSeparated(sorted[0], sorted);
      FoldLength(sorted[0], sorted);
    }
  }

  lemma SeparatedIsSorted(rs: seq<Range>)
    requires Separated(rs)
    ensures SortedByStart(rs)
  {
    forall i, j | 0 <= i < j < |rs| ensures rs[i].start <= rs[j].start {
      assert rs[i].start <= rs[i].end < rs[j].start;
    }
  }

  /** Separated ranges are their own merge. */
  lemma MergeOfSeparated(rs: seq<Range>)
    requires Separated(rs)
    ensures Merge(rs) == rs
  {
    if rs != [] {
      SeparatedIsSorted(rs);
      SortAlreadySorted(rs);
      FoldOfSeparated(rs, |rs|);
      assert rs[..|rs|] == rs;
    }
  }

  /** A second merge changes nothing. */
  lemma MergeIdempotent(ranges: seq<Range>)
    requires AllWellFormed(ranges)
    ensures Merge(Merge(ranges)) == Merge(ranges)
  {
    MergeSeparated(ranges);
    MergeOfSeparated(Merge(ranges));
  }

  /** Merging keeps every range inside any bounds the input respects. */
  lemma {:induction false} FoldWithin(first: Range, s: seq<Range>, lo: int, hi: int)
    requires Within([first], lo, hi) && Within(s, lo, hi)
    ensures Within(Fold(first, s), lo, hi)
    decreases |s|
  {
    if s != [] {
      FoldWithin(first, s[..|s| - 1], lo, hi);
    }
  }

  lemma MergeWithin(ranges: seq<Range>, lo: int, hi: int)
    requires Within(ranges, lo, hi)
    ensures Within(Merge(ranges), lo, hi)
  {
    if ranges != [] {
      var sorted := SortByStart(ranges);
      forall i | 0 <= i < |sorted| ensures lo <= sorted[i].start && sorted[i].end <= hi {
        assert sorted[i] in multiset(ranges);
      }
      FoldWithin(sorted[0], sorted, lo, hi);
    }
  }

  /** The fold over two sorted ranges, step by step. */
  lemma FoldTwo(a: Range, b: Range)
    requires a.start <= a.end
    ensures Fold(a, [a, b]) == Absorb([a], b)
  {
    var s := [a, b];
    assert s[..1] == [a] && s[..1][..0] == [];
    assert Fold(a, s[..1]) == Absorb([a], a) == [a];
  }

  /** A single well-formed range is its own merge. */
  lemma MergeSingle(r: Range)
    requires r.start <= r.end
    ensures Merge([r]) == [r]
  {
    assert SortByStart([r]) == [r] by { assert [r][1..] == []; }
    assert Fold(r, [r]) == Absorb([r], r) by { assert [r][..0] == []; }
  }

  /**
   * A reversed range fails the `<=` test against its own copy (line 70) and
   * is pushed a second time (line 74): the merge is longer than its input,
   * and merging again pushes it a third time.
   */
  lemma MergeReversedSingle(r: Range)
    requires r.start > r.end
    ensures Merge([r]) == [r, r]
    ensures Merge(Merge([r])) == [r, r, r]
  {
    assert SortByStart([r]) == [r] by { assert [r][1..] == []; }
    assert Fold(r, [r]) == Absorb([r], r) by { assert [r][..0] == []; }
    assert SortByStart([r, r]) == [r, r] by {
      assert [r, r][1..] == [r];
      assert [r][1..] == [];
    }
    assert Fold(r, [r, r]) == Absorb(Fold(r, [r]), r) by {
      assert [r, r][..1] == [r];
    }
  }

  /** The example of src/scanner.ts:58-59: [0, 10] and [5, 15] become [0, 15]. */
  lemma MergeOverlapping()
    ensures Merge([Range(0, 10), Range(5, 15)]) == [Range(0, 15)]
  {
    var a := [Range(0, 10), Range(5, 15)];
    SortAlreadySorted(a);
    FoldTwo(a[0], a[1]);
  }

  /** Ranges that only touch are joined too, whatever their input order. */
  lemma MergeAdjacent()
    ensures Merge([Range(5, 8), Range(0, 5)]) == [Range(0, 8)]
  {
    var b := [Range(5, 8), Range(0, 5)];
    assert SortByStart(b[1..]) == [Range(0, 5)];
    assert SortByStart(b) == [Range(0, 5), Range(5, 8)];
    FoldTwo(Range(0, 5), Range(5, 8));
  }

  /** Ranges with a gap between them stay apart. */
  lemma MergeDisjoint()
    ensures Merge([Range(0, 4), Range(5, 8)]) == [Range(0, 4), Range(5, 8)]
  {
    var c := [Range(0, 4), Range(5, 8)];
    SortAlreadySorted(c);
    FoldTwo(c[0], c[1]);
  }

  /**
   * `mergeRanges` as the source runs it: copy and sort, seed `merged` with
   * the first sorted range, then fold every sorted range into it.
   */
  method MergeRanges(ranges: seq<Range>) returns (merged: seq<Range>)
    ensures merged == Merge(ranges)
    ensures Offsets(merged) == Offsets(ranges)
    ensures AllWellFormed(ranges) ==> Separated(merged) && |merged| <= |ranges|
  {
    if |ranges| == 0 {
      return [];
    }
    var sorted := SortByStart(ranges);
    merged := [sorted[0]];
    for i := 0 to |sorted|
      invariant merged == Fold(sorted[0], sorted[..i])
    {
      var current := sorted[i];
      var previous := merged[|merged| - 1];
      if current.start <= previous.end {
        merged := merged[..|merged| - 1] + [Range(previous.start, Max(previous.end, current.end))];
      } else {
        merged := merged + [current];
      }
      assert sorted[..i + 1][..i] == sorted[..i];
    }
    assert sorted[..|sorted|] == sorted;
    MergeOffsets(ranges);
    if AllWellFormed(ranges) { MergeSeparated(ranges); }
  }
}

=== FILE: scanner.dfy ===
/**
 * `scanCssCoverage` (src/scanner.ts:80-223): crawl from the seed, collect
 * coverage, cut every stylesheet into used and unused text, write the two
 * buffers as used.css and unused.css, and report the totals.
 */
module Scanner {
  import opened Wrappers
  import opened Coverage
  import opened Braces
  import opened Crawl
  import opened Stats

  /** The labels of the three viewports every page is swept through (src/scanner.ts:7-11). */
  const ViewportLabels: seq<string> := ["Desktop (1920x1080)", "Tablet (768x1024)", "Mobile (375x667)"]

  /** The report of a finished scan (src/scanner.ts:205-216). */
  datatype ScanResult = ScanResult(
    url: string,
    totalBytes: int,
    usedBytes: int,
    unusedBytes: int,
    unusedPercentage: Percentage,
    scannedViewports: seq<string>,
    outputFile: string,
    unusedOutputFile: string,
    totalPagesScanned: nat,
    pagesList: seq<string>)

  /** The scan rejects before crawling when `new URL` refuses the seed (src/scanner.ts:93). */
  datatype ScanError = InvalidUrl(url: string)

  /** The text handed to the formatter: the header, then the buffer padded on one side only. */
  ghost predicate PaddedFile(file: string, header: string, content: string) {
    exists k: nat, m: nat :: (k == 0 || m == 0) && file == header + Repeat("{\n", k) + content + Repeat("}\n", m)
  }

  /** No braces in the file names the scan writes. */
  lemma FileNamesHaveNoBraces()
    ensures forall i :: 0 <= i < |"used.css"| ==> "used.css"[i] != '{' && "used.css"[i] != '}'
    ensures forall i :: 0 <= i < |"unused.css"| ==> "unused.css"[i] != '{' && "unused.css"[i] != '}'
  {
  }

  /**
   * writeCssFile on one buffer (src/scanner.ts:26-43, 197-198): the header
   * names the file and the number of visited pages, and the text handed to
   * the formatter is balanced.
   */
  method WriteCss(fileName: string, content: string, pages: nat) returns (file: string)
    requires forall i :: 0 <= i < |fileName| ==> fileName[i] != '{' && fileName[i] != '}'
    ensures PaddedFile(file, Header(fileName, pages), content)
    ensures Balanced(file)
  {
    ghost var k: nat, m: nat;
    file, k, m := PrepareCss(content, Header(fileName, pages));
    HeaderHasNoBraces(fileName, pages);
  }

  /**
   * The second half of the scan (src/scanner.ts:165-216): the stats pass
   * over the coverage map, the two files and the report.
   */
  method Report(initialUrl: string, store: Store, pagesVisited: nat, pages: seq<string>)
    returns (res: ScanResult, usedFile: string, unusedFile: string)
    requires Valid(store)
    ensures KeysIn(store.sheets, store.order)
    ensures res.url == initialUrl && res.totalPagesScanned == pagesVisited && res.pagesList == pages
    ensures var t := TallyOf(store.sheets, store.order);
      && res.totalBytes == t.totalBytes
      && res.usedBytes == t.usedBytes
      && res.unusedBytes == res.totalBytes - res.usedBytes
      && res.unusedPercentage == UnusedPercentage(res.totalBytes, res.unusedBytes)
      && (res.unusedPercentage.NoBytes? <==> res.totalBytes == 0)
      && res.scannedViewports == ViewportLabels
      && res.outputFile == "used.css" && res.unusedOutputFile == "unused.css"
      && PaddedFile(usedFile, Header("used.css", pagesVisited), t.usedCss)
      && PaddedFile(unusedFile, Header("unused.css", pagesVisited), t.unusedCss)
      && Balanced(usedFile) && Balanced(unusedFile)
  {
    var totalBytes, usedBytes, usedCss, unusedCss := Summarize(store);
    FileNamesHaveNoBraces();
    usedFile := WriteCss("used.css", usedCss, pagesVisited);
    unusedFile := WriteCss("unused.css", unusedCss, pagesVisited);
    var unusedBytes := totalBytes - usedBytes;
    res := ScanResult(
      initialUrl, totalBytes, usedBytes, unusedBytes, UnusedPercentage(totalBytes, unusedBytes),
      ViewportLabels, "used.css", "unused.css", pagesVisited, pages);
  }

  /**
   * The whole scan, under a browser that never fails. The two extra string
   * results are what is handed to the formatter for used.css and
   * unused.css. `browserClosed` says whether the `finally` of lines 220-222
   * closes the browser launched at line 81: the seed's origin is computed
   * at line 93, before the `try` of line 95, so a rejected seed leaves the
   * browser open.
   */
  method ScanCssCoverage(initialUrl: string, options: Options, browser: Browser)
    returns (r: Result<ScanResult, ScanError>, usedFile: string, unusedFile: string, browserClosed: bool)
    ensures r.Failure? <==> browser.originOf(initialUrl).None?
    ensures browserClosed <==> r.Success?
    ensures r.Failure? ==> r.error == InvalidUrl(initialUrl)
    // the pages
    ensures r.Success? ==>
      var res := r.value;
      && res.url == initialUrl
      && res.pagesList == Run(browser, browser.originOf(initialUrl).value, options, [Task(initialUrl, 0)], {}, [])
      && res.totalPagesScanned == |res.pagesList| <= MaxZero(options.maxPages)
      && Distinct(res.pagesList)
      && (options.maxPages > 0 ==> |res.pagesList| > 0 && res.pagesList[0] == initialUrl)
      && (options.depth <= 0 ==> |res.pagesList| <= 1)
      && (forall i :: 0 <= i < |res.pagesList| ==> browser.originOf(res.pagesList[i]) == browser.originOf(initialUrl))
    // the numbers
    ensures r.Success? ==>
      var res := r.value;
      var st := AbsorbVisits(browser, res.pagesList);
      && KeysIn(st.sheets, st.order)
      && res.totalBytes == TallyOf(st.sheets, st.order).totalBytes
      && res.usedBytes == TallyOf(st.sheets, st.order).usedBytes
      && res.unusedBytes == res.totalBytes - res.usedBytes
      && res.unusedPercentage == UnusedPercentage(res.totalBytes, res.unusedBytes)
      && (res.unusedPercentage.NoBytes? <==> res.totalBytes == 0)
      && res.scannedViewports == ViewportLabels
    // the files
    ensures r.Success? ==>
      var res := r.value;
      var st := AbsorbVisits(browser, res.pagesList);
      && KeysIn(st.sheets, st.order)
      && res.outputFile == "used.css" && res.unusedOutputFile == "unused.css"
      && PaddedFile(usedFile, Header("used.css", |res.pagesList|), TallyOf(st.sheets, st.order).usedCss)
      && PaddedFile(unusedFile, Header("unused.css", |res.pagesList|), TallyOf(st.sheets, st.order).unusedCss)
      && Balanced(usedFile) && Balanced(unusedFile)
  {
    var origin := browser.originOf(initialUrl);
    if origin.None? {
      return Failure(InvalidUrl(initialUrl)), "", "", false;
    }
    var visited, scanned, store, depths := CrawlPages(initialUrl, origin.value, options, browser);
    assert forall i :: 0 <= i < |scanned| ==> scanned[i] in visited;
    var res;
    res, usedFile, unusedFile := Report(initialUrl, store, |visited|, scanned);
    r := Success(res);
    browserClosed := true;
  }
}

=== FILE: stats.dfy ===
/**
 * The final statistics pass of `scanCssCoverage` (src/scanner.ts:165-203):
 * each stylesheet's text is cut at its merged ranges into used pieces and
 * unused gaps, the pieces go to two buffers, and the byte counts are summed.
 */
module Stats {
  import opened Ranges
  import opened Coverage

  // ---------------------------------------------------------------------
  // `String.prototype.slice`
  // ---------------------------------------------------------------------

  /**
   * How `slice` reads an index: a negative one counts back from the end,
   * and the result is clamped to [0, len].
   */
  function SliceIndex(i: int, len: nat): (r: nat)
    ensures r <= len
    ensures 0 <= i <= len ==> r == i
    ensures i > len ==> r == len
    ensures i < 0 && 0 <= len + i ==> r == len + i
    ensures len + i < 0 ==> r == 0
  {
    if i < 0 then (if len + i < 0 then 0 else len + i)
    else if i > len then len
    else i
  }

  /** `s.slice(from, to)`: the text between the two indices, empty when they cross. */
  function Slice(s: string, from: int, to: int): (r: string)
    ensures 0 <= from <= to <= |s| ==> r == s[from..to]
    ensures |r| <= |s|
  {
    var a, b := SliceIndex(from, |s|), SliceIndex(to, |s|);
    if a < b then s[a..b] else []
  }

  // ---------------------------------------------------------------------
  // Cutting one stylesheet
  // ---------------------------------------------------------------------

  /** A piece of a stylesheet's text, as the walk classifies it. */
  datatype Segment = Used(text: string) | Unused(text: string)

  /** The cursor after walking over rs: the end of the last range, 0 before any. */
  function CursorAfter(rs: seq<Range>): int {
    if rs == [] then 0 else rs[|rs| - 1].end
  }

  /** The unused gap before r, when r starts after the cursor. */
  function Gap(text: string, cursor: int, r: Range): seq<Segment> {
    if r.start > cursor then [Unused(Slice(text, cursor, r.start))] else []
  }

  /**
   * The pieces the range loop of src/scanner.ts:178-190 emits: for each
   * range, the gap since the cursor when the range starts after it, then
   * the range itself.
   */
  function Walk(text: string, rs: seq<Range>): seq<Segment>
    decreases |rs|
  {
    if rs == [] then []
    else
      var prefix := rs[..|rs| - 1];
      var r := rs[|rs| - 1];
      Walk(text, prefix) + Gap(text, CursorAfter(prefix), r) + [Used(Slice(text, r.start, r.end))]
  }

  /** Every piece of one stylesheet: the walk, then the tail after the cursor (lines 192-194). */
  function Segments(text: string, rs: seq<Range>): seq<Segment> {
    var cursor := CursorAfter(rs);
    Walk(text, rs) + (if cursor < |text| then [Unused(Slice(text, cursor, |text|))] else [])
  }

  /** The pieces of one kind, each followed by a newline, as a buffer receives them. */
  function Render(segs: seq<Segment>, used: bool): string
    decreases |segs|
  {
    if segs == [] then []
    else
      var last := segs[|segs| - 1];
      Render(segs[..|segs| - 1], used) + (if last.Used? == used then last.text + "\n" else [])
  }

  /** The pieces put back together in order. */
  function Join(segs: seq<Segment>): string
    decreases |segs|
  {
    if segs == [] then [] else Join(segs[..|segs| - 1]) + segs[|segs| - 1].text
  }

  /** The number of characters in the pieces of one kind. */
  function Size(segs: seq<Segment>, used: bool): nat
    decreases |segs|
  {
    if segs == [] then 0
    else
      var last := segs[|segs| - 1];
      Size(segs[..|segs| - 1], used) + (if last.Used? == used then |last.text| else 0)
  }

  /** What the ranges add to `usedBytes`: the sum of end - start. */
  function Width(rs: seq<Range>): int
    decreases |rs|
  {
    if rs == [] then 0 else Width(rs[..|rs| - 1]) + (rs[|rs| - 1].end - rs[|rs| - 1].start)
  }

  lemma RenderSnoc(segs: seq<Segment>, s: Segment, used: bool)
    ensures Render(segs + [s], used) == Render(segs, used) + (if s.Used? == used then s.text + "\n" else [])
  {
    assert (segs + [s])[..|segs|] == segs;
  }

  lemma JoinSnoc(segs: seq<Segment>, s: Segment)
    ensures Join(segs + [s]) == Join(segs) + s.text
  {
    assert (segs + [s])[..|segs|] == segs;
  }

  lemma SizeSnoc(segs: seq<Segment>, s: Segment, used: bool)
    ensures Size(segs + [s], used) == Size(segs, used) + (if s.Used? == used then |s.text| else 0)
  {
    assert (segs + [s])[..|segs|] == segs;
  }

  /** The pieces of both kinds together hold every character of the joined text. */
  lemma {:induction false} JoinLength(segs: seq<Segment>)
    ensures |Join(segs)| == Size(segs, true) + Size(segs, false)
    decreases |segs|
  {
    if segs != [] {
      JoinLength(segs[..|segs| - 1]);
    }
  }

  /** One more range walked over, as the loop body sees it. */
  lemma WalkStep(text: string, rs: seq<Range>, i: int)
    requires 0 <= i < |rs|
    ensures Walk(text, rs[..i + 1]) == Walk(text, rs[..i]) + Gap(text, CursorAfter(rs[..i]), rs[i]) + [Used(Slice(text, rs[i].start, rs[i].end))]
    ensures CursorAfter(rs[..i + 1]) == rs[i].end
    ensures Width(rs[..i + 1]) == Width(rs[..i]) + (rs[i].end - rs[i].start)
  {
    assert rs[..i + 1][..i] == rs[..i];
  }

  /** What one step of the walk adds to each buffer. */
  lemma RenderStep(text: string, w: seq<Segment>, cursor: int, r: Range, used: bool)
    ensures Render(w + Gap(text, cursor, r) + [Used(Slice(text, r.start, r.end))], used)
         == Render(w, used) + (if used then Slice(text, r.start, r.end) + "\n"
                               else if r.start > cursor then Slice(text, cursor, r.start) + "\n" else [])
  {
    var g := Gap(text, cursor, r);
    RenderSnoc(w + g, Used(Slice(text, r.start, r.end)), used);
    if r.start > cursor {
      RenderSnoc(w, g[0], used);
    } else {
      assert w + g == w;
    }
  }

  /** One step of the walk, from a cursor inside the text, extends the joined text to the range's end. */
  lemma CoverStep(text: string, w: seq<Segment>, c: int, r: Range)
    requires 0 <= c <= r.start <= r.end <= |text|
    requires Join(w) == text[..c]
    ensures Join(w + Gap(text, c, r) + [Used(Slice(text, r.start, r.end))]) == text[..r.end]
    ensures Size(w + Gap(text, c, r) + [Used(Slice(text, r.start, r.end))], true) == Size(w, true) + (r.end - r.start)
  {
    var g := Gap(text, c, r);
    var piece := Used(text[r.start..r.end]);
    JoinSnoc(w + g, piece);
    SizeSnoc(w + g, piece, true);
    if r.start > c {
      JoinSnoc(w, g[0]);
      SizeSnoc(w, g[0], true);
      assert text[..c] + text[c..r.start] + text[r.start..r.end] == text[..r.end];
    } else {
      assert w + g == w;
      assert text[..c] + text[r.start..r.end] == text[..r.end];
    }
  }

  /**
   * Over separated ranges inside the text, the walk reproduces the text up
   * to the cursor, and its used pieces hold exactly `Width` characters.
   */
  lemma {:induction false} WalkCovers(text: string, rs: seq<Range>)
    requires Separated(rs) && Within(rs, 0, |text|)
    ensures 0 <= CursorAfter(rs) <= |text|
    ensures Join(Walk(text, rs)) == text[..CursorAfter(rs)]
    ensures Size(Walk(text, rs), true) == Width(rs)
    decreases |rs|
  {
    if rs != [] {
      var n := |rs| - 1;
      var prefix := rs[..n];
      assert Separated(prefix) && Within(prefix, 0, |text|) by {
        assert forall i :: 0 <= i < n ==> prefix[i] == rs[i];
      }
      WalkCovers(text, prefix);
      var c := CursorAfter(prefix);
      assert c <= rs[n].start by {
        if prefix != [] { assert prefix[n - 1] == rs[n - 1]; }
      }
      WalkStep(text, rs, n);
      assert rs[..n + 1] == rs;
      CoverStep(text, Walk(text, prefix), c, rs[n]);
    }
  }

  /** The tail after the cursor completes a walk that reproduced the text up to the cursor. */
  lemma JoinTail(text: string, rs: seq<Range>)
    requires 0 <= CursorAfter(rs) <= |text|
    requires Join(Walk(text, rs)) == text[..CursorAfter(rs)]
    ensures Join(Segments(text, rs)) == text
    ensures Size(Segments(text, rs), true) == Size(Walk(text, rs), true)
  {
    var w := Walk(text, rs);
    var c := CursorAfter(rs);
    if c < |text| {
      var tail := Unused(Slice(text, c, |text|));
      assert Segments(text, rs) == w + [tail];
      assert Join(w + [tail]) == text by {
        JoinSnoc(w, tail);
        assert tail.text == text[c..];
        assert text[..c] + text[c..] == text;
      }
      SizeSnoc(w, tail, true);
    } else {
      assert Segments(text, rs) == w + [] == w;
      assert text[..c] == text;
    }
  }

  /** Over separated ranges inside the text, the pieces put back together are the text. */
  lemma SegmentsReassemble(text: string, rs: seq<Range>)
    requires Separated(rs) && Within(rs, 0, |text|)
    ensures Join(Segments(text, rs)) == text
    ensures Size(Segments(text, rs), true) == Width(rs)
    ensures Size(Segments(text, rs), false) == |text| - Width(rs)
  {
    WalkCovers(text, rs);
    JoinTail(text, rs);
    JoinLength(Segments(text, rs));
  }

  /** What the tail after the cursor adds to each buffer. */
  lemma RenderTail(text: string, rs: seq<Range>, used: bool)
    ensures Render(Segments(text, rs), used)
         == Render(Walk(text, rs), used)
            + (if !used && CursorAfter(rs) < |text| then Slice(text, CursorAfter(rs), |text|) + "\n" else [])
  {
    var w := Walk(text, rs);
    var c := CursorAfter(rs);
    if c < |text| {
      RenderSnoc(w, Unused(Slice(text, c, |text|)), used);
    } else {
      assert Segments(text, rs) == w + [] == w;
    }
  }

  /** One pass of the range loop body (src/scanner.ts:179-189) on the two buffers. */
  method CutRange(text: string, range: Range, cursor: int, used: string, unused: string)
    returns (used': string, unused': string)
    ensures used' == used + (Slice(text, range.start, range.end) + "\n")
    ensures unused' == unused + (if range.start > cursor then Slice(text, cursor, range.start) + "\n" else [])
  {
    unused' := unused;
    if range.start > cursor {
      unused' := unused + Slice(text, cursor, range.start) + "\n";
    }
    used' := used + Slice(text, range.start, range.end) + "\n";
  }

  /**
   * The range loop of src/scanner.ts:177-194 for one stylesheet, with its
   * ranges already merged: the used text, the unused text and the number
   * of used bytes it contributes.
   */
  method ScanSheet(text: string, ranges: seq<Range>) returns (used: string, unused: string, usedBytes: int)
    ensures used == Render(Segments(text, ranges), true)
    ensures unused == Render(Segments(text, ranges), false)
    ensures usedBytes == Width(ranges)
  {
    used, unused, usedBytes := "", "", 0;
    var cursor := 0;
    for i := 0 to |ranges|
      invariant cursor == CursorAfter(ranges[..i])
      invariant used == Render(Walk(text, ranges[..i]), true)
      invariant unused == Render(Walk(text, ranges[..i]), false)
      invariant usedBytes == Width(ranges[..i])
    {
      WalkStep(text, ranges, i);
      RenderStep(text, Walk(text, ranges[..i]), cursor, ranges[i], true);
      RenderStep(text, Walk(text, ranges[..i]), cursor, ranges[i], false);
      used, unused := CutRange(text, ranges[i], cursor, used, unused);
      usedBytes := usedBytes + (ranges[i].end - ranges[i].start);
      cursor := ranges[i].end;
    }
    assert ranges[..|ranges|] == ranges;
    RenderTail(text, ranges, true);
    RenderTail(text, ranges, false);
    if cursor < |text| {
      unused := unused + Slice(text, cursor, |text|) + "\n";
    }
  }

  // ---------------------------------------------------------------------
  // The loop over the coverage map
  // ---------------------------------------------------------------------

  /** The four accumulators of the stats loop. */
  datatype Tally = Tally(totalBytes: int, usedBytes: int, usedCss: string, unusedCss: string)

  /** All keys are in the map. */
  predicate KeysIn(sheets: map<string, Sheet>, keys: seq<string>) {
    forall i :: 0 <= i < |keys| ==> keys[i] in sheets
  }

  /** The pieces of one stored sheet, cut at its re-merged ranges. */
  function SheetSegments(sheet: Sheet): seq<Segment> {
    Segments(sheet.text, Merge(sheet.ranges))
  }

  /** The accumulators after one more sheet (src/scanner.ts:173-194). */
  function AddSheet(before: Tally, sheet: Sheet): Tally {
    var segs := SheetSegments(sheet);
    Tally(before.totalBytes + |sheet.text|,
          before.usedBytes + Width(Merge(sheet.ranges)),
          before.usedCss + Render(segs, true),
          before.unusedCss + Render(segs, false))
  }

  /** The accumulators after the loop of src/scanner.ts:171-195 has visited the keys in order. */
  function TallyOf(sheets: map<string, Sheet>, keys: seq<string>): (t: Tally)
    requires KeysIn(sheets, keys)
    ensures t.totalBytes >= 0
    decreases |keys|
  {
    if keys == [] then Tally(0, 0, "", "")
    else AddSheet(TallyOf(sheets, keys[..|keys| - 1]), sheets[keys[|keys| - 1]])
  }

  /** One more key visited, as the loop body sees it. */
  lemma TallyStep(sheets: map<string, Sheet>, keys: seq<string>, i: int)
    requires KeysIn(sheets, keys) && 0 <= i < |keys|
    ensures KeysIn(sheets, keys[..i]) && KeysIn(sheets, keys[..i + 1])
    ensures TallyOf(sheets, keys[..i + 1]) == AddSheet(TallyOf(sheets, keys[..i]), sheets[keys[i]])
  {
    assert forall j :: 0 <= j < i + 1 ==> keys[..i + 1][j] == keys[j];
    assert keys[..i + 1][..i] == keys[..i];
  }

  /** A stored sheet whose ranges are well formed and lie inside its text. */
  predicate InBounds(sheet: Sheet) {
    AllWellFormed(sheet.ranges) && Within(sheet.ranges, 0, |sheet.text|)
  }

  /**
   * For a sheet whose ranges lie inside its text, the re-merged ranges cut
   * the text into pieces that put back together give the text; the used
   * pieces hold exactly the bytes the sheet adds to `usedBytes`, and the
   * unused ones the rest.
   */
  lemma SheetAccounting(sheet: Sheet)
    requires InBounds(sheet)
    ensures Join(SheetSegments(sheet)) == sheet.text
    ensures Size(SheetSegments(sheet), true) == Width(Merge(sheet.ranges))
    ensures Size(SheetSegments(sheet), false) == |sheet.text| - Width(Merge(sheet.ranges))
    ensures 0 <= Width(Merge(sheet.ranges)) <= |sheet.text|
  {
    MergeSeparated(sheet.ranges);
    MergeWithin(sheet.ranges, 0, |sheet.text|);
    SegmentsReassemble(sheet.text, Merge(sheet.ranges));
    JoinLength(SheetSegments(sheet));
  }

  /** When every sheet's ranges lie inside its text, 0 <= usedBytes <= totalBytes. */
  lemma {:induction false} TallyBounds(sheets: map<string, Sheet>, keys: seq<string>)
    requires KeysIn(sheets, keys)
    requires forall i :: 0 <= i < |keys| ==> InBounds(sheets[keys[i]])
    ensures 0 <= TallyOf(sheets, keys).usedBytes <= TallyOf(sheets, keys).totalBytes
    decreases |keys|
  {
    if keys != [] {
      var n := |keys| - 1;
      TallyStep(sheets, keys, n);
      assert keys[..n + 1] == keys;
      assert forall i :: 0 <= i < n ==> keys[..n][i] == keys[i];
      TallyBounds(sheets, keys[..n]);
      SheetAccounting(sheets[keys[n]]);
    }
  }

  /**
   * A sheet whose ranges reach past its text: `usedBytes` counts the whole
   * range while `slice` clamps the text, so usedBytes exceeds totalBytes
   * and unusedBytes goes negative. The coverage map produces such a sheet
   * when a later page reports a longer text under the same URL, since the
   * first text is kept while the ranges are merged (TwoPagesShareOneSheet).
   */
  lemma RangesPastText(key: string, text: string, end: int)
    requires end > |text|
    ensures var t := TallyOf(map[key := Sheet(text, [Range(0, end)])], [key]);
      t.usedBytes == end && t.totalBytes == |text| && t.usedBytes > t.totalBytes
    ensures var t := TallyOf(map[key := Sheet(text, [Range(0, end)])], [key]);
      |text| > 0 ==> UnusedPercentage(t.totalBytes, t.totalBytes - t.usedBytes).value < 0.0
  {
    var r := Range(0, end);
    var m := map[key := Sheet(text, [r])];
    MergeSingle(r);
    assert Width([r]) == end by { assert [r][..0] == []; }
    assert KeysIn(m, [key]);
    assert TallyOf(m, [key]) == AddSheet(TallyOf(m, []), m[key]) by { assert [key][..0] == []; }
  }

  /**
   * One pass of the stats loop body (src/scanner.ts:173-194): count the
   * sheet's text, re-merge its ranges with mergeRanges, cut the text and
   * add the pieces and the used bytes to the accumulators.
   */
  method ScanEntry(data: Sheet, totalBytes: int, usedBytes: int, usedCss: string, unusedCss: string)
    returns (totalBytes': int, usedBytes': int, usedCss': string, unusedCss': string)
    ensures Tally(totalBytes', usedBytes', usedCss', unusedCss') == AddSheet(Tally(totalBytes, usedBytes, usedCss, unusedCss), data)
  {
    totalBytes' := totalBytes + |data.text|;
    var ranges := MergeRanges(data.ranges);
    var used, unused, bytes := ScanSheet(data.text, ranges);
    usedBytes' := usedBytes + bytes;
    usedCss' := usedCss + used;
    unusedCss' := unusedCss + unused;
  }

  /**
   * The stats loop of src/scanner.ts:166-195 over the coverage map in
   * insertion order: it re-merges each sheet's ranges with mergeRanges,
   * cuts the text, and accumulates the byte counts and the two buffers.
   */
  method Summarize(store: Store) returns (totalBytes: int, usedBytes: int, usedCss: string, unusedCss: string)
    requires Valid(store)
    ensures KeysIn(store.sheets, store.order)
    ensures Tally(totalBytes, usedBytes, usedCss, unusedCss) == TallyOf(store.sheets, store.order)
  {
    assert KeysIn(store.sheets, store.order);
    totalBytes, usedBytes, usedCss, unusedCss := 0, 0, "", "";
    for i := 0 to |store.order|
      invariant Tally(totalBytes, usedBytes, usedCss, unusedCss) == TallyOf(store.sheets, store.order[..i])
    {
      TallyStep(store.sheets, store.order, i);
      totalBytes, usedBytes, usedCss, unusedCss := ScanEntry(store.sheets[store.order[i]], totalBytes, usedBytes, usedCss, unusedCss);
    }
    assert store.order[..|store.order|] == store.order;
  }

  // ---------------------------------------------------------------------
  // The percentage
  // ---------------------------------------------------------------------

  /** `unusedPercentage` before formatting: the string "0" without bytes, otherwise the exact ratio. */
  datatype Percentage = NoBytes | Ratio(value: real)

  /**
   * src/scanner.ts:201-203: "0" without bytes, otherwise unused over total
   * times 100. Between 0 and 100 when 0 <= unusedBytes <= totalBytes, and
   * negative once unusedBytes is.
   */
  function UnusedPercentage(totalBytes: int, unusedBytes: int): (p: Percentage)
    ensures p.NoBytes? <==> totalBytes <= 0
    ensures p.Ratio? && 0 <= unusedBytes <= totalBytes ==> 0.0 <= p.value <= 100.0
    ensures p.Ratio? && unusedBytes < 0 ==> p.value < 0.0
  {
    if totalBytes > 0 then
      var q := unusedBytes as real / totalBytes as real;
      assert q * totalBytes as real == unusedBytes as real;
      Ratio(q * 100.0)
    else NoBytes
  }

  /** The buffers for a sheet covered by one range from offset 0. */
  lemma SingleRangeRender(text: string, e: int)
    requires 0 <= e <= |text|
    ensures Render(Segments(text, [Range(0, e)]), true) == text[..e] + "\n"
    ensures Render(Segments(text, [Range(0, e)]), false) == (if e < |text| then text[e..] + "\n" else "")
  {
    var r := Range(0, e);
    var w := [Used(text[0..e])];
    assert Walk(text, [r]) == w by { assert [r][..0] == []; }
    assert Render(w, true) == text[..e] + "\n" by { RenderSnoc([], w[0], true); assert [] + w == w; }
    assert Render(w, false) == [] by { RenderSnoc([], w[0], false); assert [] + w == w; }
    RenderTail(text, [r], true);
    RenderTail(text, [r], false);
  }

  /**
   * A sheet reported with the single range [0, e) inside its text: e bytes
   * used, the first e characters in the used buffer and the rest, when
   * there is any, in the unused one.
   */
  lemma SingleRangeTally(key: string, text: string, e: int)
    requires 0 <= e <= |text|
    ensures TallyOf(map[key := Sheet(text, [Range(0, e)])], [key])
         == Tally(|text|, e, text[..e] + "\n", if e < |text| then text[e..] + "\n" else "")
  {
    var m := map[key := Sheet(text, [Range(0, e)])];
    assert KeysIn(m, [key]);
    assert TallyOf(m, [key]) == AddSheet(TallyOf(m, []), m[key]) by { assert [key][..0] == []; }
    SingleRangeSheet(text, e);
  }

  /** The accumulators after one sheet covered by [0, e). */
  lemma SingleRangeSheet(text: string, e: int)
    requires 0 <= e <= |text|
    ensures AddSheet(Tally(0, 0, "", ""), Sheet(text, [Range(0, e)]))
         == Tally(|text|, e, text[..e] + "\n", if e < |text| then text[e..] + "\n" else "")
  {
    var r := Range(0, e);
    MergeSingle(r);
    assert Width([r]) == e by { assert [r][..0] == []; }
    SingleRangeRender(text, e);
  }

  /**
   * When every sheet's ranges lie inside its text, the reported percentage
   * of unused bytes lies in [0, 100].
   */
  lemma TallyPercentage(sheets: map<string, Sheet>, keys: seq<string>)
    requires KeysIn(sheets, keys)
    requires forall i :: 0 <= i < |keys| ==> InBounds(sheets[keys[i]])
    ensures var t := TallyOf(sheets, keys);
      var p := UnusedPercentage(t.totalBytes, t.totalBytes - t.usedBytes);
      p.Ratio? ==> 0.0 <= p.value <= 100.0
  {
    TallyBounds(sheets, keys);
  }

  /**
   * One stylesheet of 25 characters, such as "a{color:red}b{color:blue}",
   * reported with the range [0, 12): 12 bytes used, 13 unused, 52 percent.
   */
  lemma SingleSheetScenario(key: string, text: string)
    requires |text| == 25
    ensures var t := TallyOf(map[key := Sheet(text, [Range(0, 12)])], [key]);
      && t == Tally(25, 12, text[..12] + "\n", text[12..] + "\n")
      && UnusedPercentage(t.totalBytes, t.totalBytes - t.usedBytes) == Ratio(52.0)
  {
    SingleRangeTally(key, text, 12);
    assert UnusedPercentage(25, 13) == Ratio(52.0);
  }
}

=== FILE: text.dfy ===
/** Decimal rendering of non-negative integers, as JavaScript template literals print them. */
module Text {
  predicate IsDigit(c: char) { '0' <= c <= '9' }

  function DigitChar(d: nat): (c: char)
    requires d < 10
    ensures IsDigit(c)
  {
    "0123456789"[d]
  }

  /** `${n}` for a non-negative integer n: its decimal digits, without leading zeros. */
  function Decimal(n: nat): (s: string)
    ensures |s| > 0
    ensures forall i :: 0 <= i < |s| ==> IsDigit(s[i])
    ensures |s| > 1 ==> s[0] != '0'
    decreases n
  {
    if n < 10 then [DigitChar(n)] else Decimal(n / 10) + [DigitChar(n % 10)]
  }
}

=== FILE: wrappers.dfy ===
/** Option and Result for the operations of the scanner that can fail. */
module Wrappers {
  datatype Option<+T> = None | Some(value: T)

  datatype Result<+R, +E> = Success(value: R) | Failure(error: E)
}
